=== FILE: README.md ===
# Ignite thin-client wire codec, in Dafny

This project models the binary codec of a Rust client for the Apache Ignite
thin-client protocol. The client opens a connection with a handshake. The
codec also defines SQL query requests and responses (`QuerySql`,
`QuerySqlFields`), which the client does not send yet.
Every message is a little-endian byte layout. The model covers:

- the handshake request encoder and the handshake reply decoder;
- the two query request bodies, their `length()` computations and the
  `Request` envelope (length prefix, op code, request id);
- the response envelope decoders `Response::decode_query_sql` and
  `Response::decode_query_sql_fields`;
- the two body decoders, including the column-name loop;
- the field-width table of `len.rs` and its `str` function.

Modules:

- `Bytes`: bytes, i16/i32/i64 and their little-endian encodings, and Rust's
  `usize as i32` and `bool as u8` casts.
- `Utf8`: the UTF-8 well-formedness test `String::from_utf8` applies
  (section 4 of RFC 3629).
- `Outcomes`: the decoders' results. A decoder gives a value, an `io::Error`
  (`Other("Empty response")` or `InvalidData`), or a panic. A panic happens
  when the Rust code indexes or slices past the end of its buffer.
- `Len`: the width constants and `str`.
- `Fields`: general string fields (marker 9, i32 length, bytes) and handshake
  credentials (i32 length, bytes). Also the field readers used as the
  encoders' partners.
- `Handshake`, `Requests`, `Responses`: the messages.

Each encoder has a partner, a reference reader for its layout, and the model
proves the round trip in both directions. Each decoder has a partner too, a
server-side encoder, with the round trip proved for every well-formed
message. The decoders' contracts state exactly which inputs give an error and
which panic. For the column-name loop this is stated one iteration at a time
by `Column`, and the loop ends with the first iteration that fails.

The decoders index the buffer directly, and they cast a negative i32 length
to `usize` before slicing, so a short or malformed buffer panics rather than
giving an error. The model records this as `Outcome.Panic`, and the
contracts say exactly which inputs reach it.

## Model

| member | source | states |
|---|---|---|
| Len.StrStrictlyIncreasing | src/len.rs:15-17 | a longer string always has a larger encoded size than a shorter one |
| Len.WidthsMatchWrites | src/len.rs:1-13 | each width constant equals the number of bytes its field's write produces (4 for i32 fields, 8 for the i64 timeout, 1 for each flag and the statement type) |
| Bytes.I16RoundTrip | src/protocol.rs:86-88 | reading two little-endian bytes gives back the i16 they encode |
| Bytes.I32RoundTrip | src/protocol.rs:185 | reading four little-endian bytes gives back the i32 they encode |
| Bytes.I64RoundTrip | src/protocol.rs:182-184 | reading eight little-endian bytes gives back the i64 they encode |
| Bytes.I32Canonical | src/protocol.rs:185 | every four bytes are the encoding of the i32 read from them, so no two encodings read the same |
| Bytes.UsizeAsI32 | src/protocol.rs:48 | `n as i32` is `n` when it fits, and its encoding is always the low 32 bits of `n` |
| Bytes.BoolByte | src/protocol.rs:307-309 | the byte `b as u8` writes is read back as true exactly when `b` is true |
| Fields.PutCredential | src/protocol.rs:54-57 | a handshake credential is its bytes plus a four-byte length, with no marker |
| Fields.PutStr | src/protocol.rs:299-301 | a string field takes exactly `len::str(s)` bytes, which is five more than the string: one marker byte and a four-byte length |
| Fields.PutStrLayout | src/protocol.rs:299-301 | a string field is the marker 9, then the length as i32 at 1-4, then the bytes |
| Fields.TakeStrPut | src/protocol.rs:299-301 | reading a string field written in front of any rest gives the string and that rest |
| Fields.TakeStrSplit | src/protocol.rs:299-301 | whatever a string read accepts is exactly a written string field followed by the rest |
| Fields.TakeCredentialPut | src/protocol.rs:54-57 | a credential written in front of any rest reads back with that rest |
| Fields.TakeCredentialSplit | src/protocol.rs:54-57 | whatever a credential read accepts is exactly a written credential followed by the rest |
| Handshake.Encode | src/protocol.rs:45-63 | the request is `length()` bytes plus the 4-byte prefix, where `length()` is 16 plus both credentials: eight header bytes after the prefix and a four-byte length for each credential |
| Handshake.EncodeHeaderLayout | src/protocol.rs:46-53 | the prefix is at 0-3, code 1 at 4, the major, minor and patch versions at 5-6, 7-8 and 9-10, client type 2 at 11 |
| Handshake.EncodeCredentialsLayout | src/protocol.rs:54-57 | the username's length at 12-15 and its bytes, then the password's length and its bytes to the end |
| Handshake.ParseEncode | src/protocol.rs:45-63 | a server reading the request back gets the same versions and credentials |
| Handshake.EncodeParse | src/protocol.rs:45-63 | any byte sequence a server accepts is exactly the encoding of the request it read |
| Handshake.DecodeResponse | src/protocol.rs:77-100 | empty input is `Other("Empty response")`; first byte 1 is success whatever follows; otherwise fewer than 7 bytes panic, invalid UTF-8 after offset 7 is `InvalidData`, and the versions come from 1-2, 3-4 and 5-6 |
| Handshake.DecodeEncodeResponse | src/protocol.rs:77-100 | every reply a server sends decodes to itself |
| Handshake.EncodeDecodeResponse | src/protocol.rs:77-100 | conversely, an accepted reply is what a server writes for the decoded value: the first byte for a success, and the whole reply for a failure marked by 0 |
| Handshake.DecodeBadVersionExample | src/protocol.rs:82-98 | a concrete failure reply decodes to version 1.2.0 and message "bad" |
| Handshake.EmptyCredentialsExample | src/protocol.rs:45-63 | a concrete version-1.0.0 request with empty credentials reads back |
| Requests.StatementTypeByte | src/protocol.rs:439 | the statement type is written as one byte no greater than 2 |
| Requests.StatementTypeOf | src/protocol.rs:375-381 | a byte names a statement type exactly when it is 0, 1 or 2, and then it is that type's discriminant |
| Requests.StatementTypeRoundTrip | src/protocol.rs:375-381 | the written discriminant reads back as the same variant |
| Requests.QuerySqlLength | src/protocol.rs:315-328 | `length()` is 34 plus the table and SQL byte counts |
| Requests.EncodeQuerySql | src/protocol.rs:294-313 | the encoding is exactly `length()` bytes |
| Requests.QuerySqlHeadLayout | src/protocol.rs:297-304 | cache id at 0-3, reserved 0 at 4, the table string field from 5, the SQL string field after it |
| Requests.QuerySqlTailLayout | src/protocol.rs:305-311 | after the strings: argument count, the three flags, page size, then the timeout at the end |
| Requests.ParseEncodeQuerySql | src/protocol.rs:294-313 | every field written is read back when the strings fit their i32 lengths |
| Requests.EncodeParseQuerySql | src/protocol.rs:294-313 | any body the reference reading accepts is exactly the encoding of what it read |
| Requests.QuerySqlFieldsLength | src/protocol.rs:451-470 | `length()` is 43 plus the schema and SQL byte counts |
| Requests.EncodeQuerySqlFields | src/protocol.rs:424-449 | the encoding is exactly `length()` bytes |
| Requests.QuerySqlFieldsHeadLayout | src/protocol.rs:427-436 | cache id, reserved 0, the schema string field, page size and max rows, then the SQL string field |
| Requests.QuerySqlFieldsTailLayout | src/protocol.rs:437-447 | after the SQL: argument count, statement type, the six flags, the timeout, then include-field-names last |
| Requests.ParseEncodeQuerySqlFields | src/protocol.rs:424-449 | every field written is read back when the strings fit their i32 lengths |
| Requests.EncodeParseQuerySqlFields | src/protocol.rs:424-449 | any body the reference reading accepts is exactly the encoding of what it read |
| Requests.NewQuerySql | src/protocol.rs:115-121 | the request carries the QUERY_SQL op code and the given id, its body encodes as the query, and its `length()` is 10 more than the query's |
| Requests.NewQuerySqlFields | src/protocol.rs:123-132 | the same with the QUERY_SQL_FIELDS op code and the fields query |
| Requests.EncodeBody | src/protocol.rs:142-149 | the body takes exactly the chosen variant's `length()` bytes |
| Requests.RequestLength | src/protocol.rs:153-161 | `Request::length()` is 10 plus the body's encoded size |
| Requests.EncodeRequest | src/protocol.rs:136-151 | the frame is `length()` bytes plus the 4-byte prefix |
| Requests.EncodeRequestLayout | src/protocol.rs:139-149 | prefix at 0-3, op code at 4-5, request id at 6-13, body from 14 |
| Requests.ParseEnvelopeOfEncode | src/protocol.rs:136-161 | the prefix reads as 10 plus the body size, and the op code, id and body come back verbatim |
| Requests.EncodeParseRequestQuerySql | src/protocol.rs:134-161 | conversely, a frame whose envelope and QuerySql body the readers accept is exactly the encoding of the request they read |
| Requests.EncodeParseRequestQuerySqlFields | src/protocol.rs:134-161 | the same for a QuerySqlFields body |
| Requests.NewQuerySqlFrame | src/protocol.rs:115-121 | a `new_query_sql` request carries the QUERY_SQL op code and its id, and its body reads back |
| Requests.NewQuerySqlFieldsFrame | src/protocol.rs:123-132 | a `new_query_sql_fields` request carries the QUERY_SQL_FIELDS op code and its id, and its body reads back |
| Responses.DecodeQuerySqlResponse | src/protocol.rs:338-353 | empty is `Other("Empty response")`; 1-12 bytes panic; otherwise cursor id from 0-7, row count from 8-11, and has-more exactly when byte 12 is 1 |
| Responses.Column | src/protocol.rs:495-508 | one loop iteration panics exactly when the length field or the name runs past the end or the length is negative; when the name fits, it succeeds exactly when those bytes are valid UTF-8 and fails with `InvalidData` otherwise; on success it reads exactly the length's bytes and moves 5 plus that many on |
| Responses.ColumnNames | src/protocol.rs:491-509 | after `i` successful iterations there are exactly `i` names and the offset is still inside the buffer; the only error is `InvalidData` |
| Responses.ColumnNamesEnd | src/protocol.rs:493-508 | after the loop the offset is 12 plus the encoded sizes of the names read |
| Responses.ColumnNamesFailureStays | src/protocol.rs:503-506 | the first failing iteration decides the loop's outcome |
| Responses.ReadColumnNames | src/protocol.rs:491-509 | the imperative loop, with its mutable offset and early return, computes the loop state after `max(count, 0)` iterations |
| Responses.RowCountAndMore | src/protocol.rs:510-516 | the trailer panics exactly when fewer than 5 bytes remain; else the row count and has-more (byte == 1) |
| Responses.DecodeQuerySqlFieldsResponse | src/protocol.rs:482-535 | empty is `Other("Empty response")` and 1-11 bytes panic; with names, it panics exactly when a column panics or fewer than 5 bytes follow the names, gives `InvalidData` exactly when a name is not UTF-8, and on success holds exactly `max(count, 0)` names followed by the trailer; without names, it panics exactly below 17 bytes and reads 12-15 and 16 |
| Responses.DecodeErrorMessage | src/protocol.rs:186-191 | the error text panics exactly when its length at 13-16 is missing, negative or too long; otherwise it is the UTF-8 bytes from 17 |
| Responses.DecodeQuerySql | src/protocol.rs:177-211 | request id and status from 0-11; a non-zero status reads only the error text and carries the zero body; status 0 with nothing after is `Other("Empty response")`, 13-24 bytes panic, 25 or more decode the body; past byte 12 the only error is `InvalidData`, from an error text that is not UTF-8 |
| Responses.DecodeQuerySqlFields | src/protocol.rs:213-249 | request id and status from 0-11; a non-zero status reads only the error text and carries the zero fields body; status 0 panics, fails or succeeds exactly as the fields body read with names from offset 12 does; past byte 12 the only error is `InvalidData`, from an error text or column name that is not UTF-8 |
| Responses.ErrorMarkerIgnored | src/protocol.rs:187-188 | on a failed response, byte 12 can be anything without changing either decoder's result |
| Responses.ColumnMarkerIgnored | src/protocol.rs:495-496 | the marker byte in front of each column name is never checked |
| Responses.WithoutNamesReadsSeventeenBytes | src/protocol.rs:524-534 | without field names only the first 17 bytes of the body matter |
| Responses.EncodeDecodeQuerySqlFieldsResponseWithoutNames | src/protocol.rs:524-534 | an accepted body read without names, with a has-more byte of 0 or 1, begins with exactly the encoding of what was read |
| Responses.DecodeEncodeQuerySqlResponse | src/protocol.rs:338-353 | a written QuerySql body decodes to itself, whatever follows it |
| Responses.EncodeDecodeQuerySqlResponse | src/protocol.rs:338-353 | conversely, an accepted body with a has-more byte of 0 or 1 begins with exactly the encoding of what was read |
| Responses.ColumnNamesOfPut | src/protocol.rs:491-509 | names written as string fields from offset 12 are read back in order, ending where the writing ended |
| Responses.PutOfColumn | src/protocol.rs:495-508 | conversely, a column the loop accepts is a string field holding the name read, when its marker byte is 9 |
| Responses.DecodeEncodeQuerySqlFieldsResponse | src/protocol.rs:482-535 | a fields body written with or without names decodes to itself, given a count equal to the number of names |
| Responses.DecodeErrorMessageOfPut | src/protocol.rs:186-191 | an error text written as a string field at 12 reads back |
| Responses.DecodeEncodeQuerySql | src/protocol.rs:177-211 | every well-formed QuerySql response, failed or not, decodes to itself |
| Responses.DecodeEncodeQuerySqlFields | src/protocol.rs:213-249 | every well-formed QuerySqlFields response, failed or not, decodes to itself |
| Responses.TwoColumnExample | src/protocol.rs:491-523 | a concrete body with columns `ID` and `NAME` is 33 bytes and decodes to itself |

## Left out

- The socket layer (`ignite_client.rs`), the frame reader and writer, and the client's `Option<TcpStream>` connection guard, which makes `handshake` fail with `NotConnected` before it connects: they are I/O. Request-id allocation is left out because it does not exist in the code.
- The query arguments: the encoders never write them. Only their count is modelled.
- The numeric op codes: they are defined in a module that is not part of this model. `Requests.QUERY_SQL` and `Requests.QUERY_SQL_FIELDS` are unknown i16 constants.
- The text of the `InvalidData` errors, which wraps the UTF-8 error's message: only the error kind is modelled.
- Handshake.ParseEncode: requires the payload size below 2^31. For larger sizes the i32 prefix wraps (`UsizeAsI32` models the wrap) and no longer counts the payload.
- Requests.ParseEncodeQuerySql: requires both strings below 2^31 bytes, for the same reason. The same holds for Requests.ParseEncodeQuerySqlFields, Requests.NewQuerySqlFrame and Requests.NewQuerySqlFieldsFrame.
- Requests.ParseEnvelopeOfEncode: requires the request size below 2^31, because above that the i32 prefix wraps and no longer counts the frame.
- Responses.DecodeEncodeQuerySqlFieldsResponse: round-trips only bodies whose column count equals the number of names. A server that sends a different count is read by `count`, not by the number of names.
- Responses.DecodeQuerySqlFieldsResponse: with field names, the converse of the round trip is stated per column (Responses.PutOfColumn, Responses.ColumnNamesEnd), not for the whole body.
- `usize` overflow of `17 + length` and `offset + length` in the response decoders: for a non-negative i32 length the sums cannot overflow on a 64-bit target. A negative length cast with `as usize` becomes 2^64 minus a small number, so the sum overflows. A debug build panics on the overflow. A release build wraps and then panics on the slice. Either way the outcome is a panic, which is what `Panic` records.

=== FILE: bytes.dfy ===
/** Bytes, fixed-width two's-complement integers and their little-endian
    encodings, as written by `BufMut::put_i16_le` / `put_i32_le` /
    `put_i64_le` and read by `i16::from_le_bytes` and friends. */
module Bytes {

  type Byte = b: int | 0 <= b < 256

  const TWO_15: int := 0x8000
  const TWO_16: int := 0x1_0000
  const TWO_31: int := 0x8000_0000
  const TWO_32: int := 0x1_0000_0000
  const TWO_63: int := 0x8000_0000_0000_0000
  const TWO_64: int := 0x1_0000_0000_0000_0000

  type Int16 = x: int | -TWO_15 <= x < TWO_15
  type Int32 = x: int | -TWO_31 <= x < TWO_31
  type Int64 = x: int | -TWO_63 <= x < TWO_63

  function Pow256(n: nat): (p: nat)
    ensures p >= 1
  {
    if n == 0 then 1 else 256 * Pow256(n - 1)
  }

  lemma Pow256Widths()
    ensures Pow256(2) == TWO_16
    ensures Pow256(4) == TWO_32
    ensures Pow256(8) == TWO_64
  {
  }

  /** The `n` low-order base-256 digits of `u`, least significant first. */
  function LeBytes(u: nat, n: nat): (r: seq<Byte>)
    ensures |r| == n
  {
    if n == 0 then [] else [u % 256] + LeBytes(u / 256, n - 1)
  }

  /** The unsigned value of a little-endian digit sequence. */
  function LeValue(s: seq<Byte>): (v: nat)
    ensures v < Pow256(|s|)
  {
    if |s| == 0 then 0 else s[0] + 256 * LeValue(s[1..])
  }

  /** Reading back an encoding recovers any value that fits in the width. */
  lemma {:induction false} LeValueOfLeBytes(u: nat, n: nat)
    requires u < Pow256(n)
    ensures LeValue(LeBytes(u, n)) == u
  {
    if n > 0 {
      LeValueOfLeBytes(u / 256, n - 1);
      assert LeBytes(u, n)[1..] == LeBytes(u / 256, n - 1);
    }
  }

  /** Encoding the value of a digit sequence gives that sequence back. */
  lemma {:induction false} LeBytesOfLeValue(s: seq<Byte>)
    ensures LeBytes(LeValue(s), |s|) == s
  {
    if |s| > 0 {
      LeBytesOfLeValue(s[1..]);
      var v := LeValue(s);
      assert v % 256 == s[0] && v / 256 == LeValue(s[1..]);
    }
  }

  /** A slice of a slice is a slice of the original. */
  lemma SliceOfSlice(b: seq<Byte>, i: nat, j: nat, k: nat, l: nat)
    requires i <= j <= |b| && k <= l <= j - i
    ensures b[i..j][k..l] == b[i + k..i + l]
  {
    assert forall t :: 0 <= t < l - k ==> b[i..j][k..l][t] == b[i + k..i + l][t];
  }

  /** Where the four parts of `a + (b + (c + d))` land. */
  lemma Layout4(a: seq<Byte>, b: seq<Byte>, c: seq<Byte>, d: seq<Byte>)
    ensures var e := a + (b + (c + d)); var i, j := |a| + |b|, |a| + |b| + |c|;
      e[..|a|] == a && e[|a|..i] == b && e[i..j] == c && e[j..] == d
  {
    var e := a + (b + (c + d));
    var i, j := |a| + |b|, |a| + |b| + |c|;
    assert e[|a|..] == b + (c + d);
    SliceOfSlice(e, |a|, |e|, 0, |b|);
    assert e[i..] == c + d;
    SliceOfSlice(e, i, |e|, 0, |c|);
  }

  /** Taking a part `x` off the front of `e[a..]`: it ends at `b`. */
  lemma Peel(e: seq<Byte>, a: nat, b: nat, x: seq<Byte>, rest: seq<Byte>)
    requires a <= |e| && b == a + |x| && e[a..] == x + rest
    ensures e[a..b] == x && e[b..] == rest
  {
    SliceOfSlice(e, a, |e|, 0, |x|);
    assert (x + rest)[..|x|] == x;
    assert e[b..] == e[a..][|x|..];
    assert (x + rest)[|x|..] == rest;
  }

  /** Taking one byte `x` off the front of `e[a..]`. */
  lemma PeelByte(e: seq<Byte>, a: nat, x: Byte, rest: seq<Byte>)
    requires a <= |e| && e[a..] == [x] + rest
    ensures a < |e| && e[a] == x && e[a + 1..] == rest
  {
    assert e[a] == e[a..][0];
    assert e[a + 1..] == e[a..][1..];
  }

  /** Two's-complement little-endian encodings. */

  function I16Le(x: Int16): (r: seq<Byte>)
    ensures |r| == 2
  {
    LeBytes(if x < 0 then x + TWO_16 else x, 2)
  }

  function I32Le(x: Int32): (r: seq<Byte>)
    ensures |r| == 4
  {
    LeBytes(if x < 0 then x + TWO_32 else x, 4)
  }

  function I64Le(x: Int64): (r: seq<Byte>)
    ensures |r| == 8
  {
    LeBytes(if x < 0 then x + TWO_64 else x, 8)
  }

  function I16FromLe(s: seq<Byte>): Int16
    requires |s| == 2
  {
    Pow256Widths();
    var u := LeValue(s);
    if u < TWO_15 then u else u - TWO_16
  }

  function I32FromLe(s: seq<Byte>): Int32
    requires |s| == 4
  {
    Pow256Widths();
    var u := LeValue(s);
    if u < TWO_31 then u else u - TWO_32
  }

  function I64FromLe(s: seq<Byte>): Int64
    requires |s| == 8
  {
    Pow256Widths();
    var u := LeValue(s);
    if u < TWO_63 then u else u - TWO_64
  }

  lemma I16RoundTrip(x: Int16)
    ensures I16FromLe(I16Le(x)) == x
  {
    Pow256Widths();
    LeValueOfLeBytes(if x < 0 then x + TWO_16 else x, 2);
  }

  lemma I32RoundTrip(x: Int32)
    ensures I32FromLe(I32Le(x)) == x
  {
    Pow256Widths();
    LeValueOfLeBytes(if x < 0 then x + TWO_32 else x, 4);
  }

  lemma I64RoundTrip(x: Int64)
    ensures I64FromLe(I64Le(x)) == x
  {
    Pow256Widths();
    LeValueOfLeBytes(if x < 0 then x + TWO_64 else x, 8);
  }

  /** Every four-byte sequence is the encoding of the value read from it. */
  lemma I32Canonical(s: seq<Byte>)
    requires |s| == 4
    ensures I32Le(I32FromLe(s)) == s
  {
    Pow256Widths();
    LeBytesOfLeValue(s);
  }

  lemma I16Canonical(s: seq<Byte>)
    requires |s| == 2
    ensures I16Le(I16FromLe(s)) == s
  {
    Pow256Widths();
    LeBytesOfLeValue(s);
  }

  lemma I64Canonical(s: seq<Byte>)
    requires |s| == 8
    ensures I64Le(I64FromLe(s)) == s
  {
    Pow256Widths();
    LeBytesOfLeValue(s);
  }

  /** Rust's `n as i32` for a `usize` `n`: keep the low 32 bits and read them
      as two's complement. */
  function UsizeAsI32(n: nat): (r: Int32)
    ensures n < TWO_31 ==> r == n
    ensures I32Le(r) == LeBytes(n % TWO_32, 4)
  {
    var m := n % TWO_32;
    if m < TWO_31 then m else m - TWO_32
  }

  /** Rust's `b as u8` for a `bool`. */
  function BoolByte(b: bool): (r: Byte)
    ensures IsTrue(r) == b
  {
    if b then 1 else 0
  }

  /** The decoders' lenient flag test `data[k] == 1`. */
  predicate IsTrue(b: Byte) {
    b == 1
  }
}

=== FILE: fields.dfy ===
/** The string encodings shared by the messages, and the readers the
    reference parsers use to take a message apart again. Each reader takes
    one field off the front of a byte sequence and returns the rest. */
module Fields {
  import opened Bytes
  import opened Utf8
  import opened Outcomes
  import Len

  /** The type code of a string in the protocol's value-type system. */
  const STRING_MARKER: Byte := 9

  /** A general string field: marker 9, the byte count as i32, the bytes. */
  function PutStr(s: seq<Byte>): (r: seq<Byte>)
    ensures |r| == Len.Str(s)
  {
    [STRING_MARKER] + (I32Le(UsizeAsI32(|s|)) + s)
  }

  /** A handshake credential: the byte count as i32 and the bytes, without a
      marker. */
  function PutCredential(s: seq<Byte>): (r: seq<Byte>)
    ensures |r| == 4 + |s|
  {
    I32Le(UsizeAsI32(|s|)) + s
  }

  /** The three parts of a general string field. */
  lemma PutStrLayout(s: seq<Byte>)
    ensures var r := PutStr(s);
      r[0] == STRING_MARKER && r[1..5] == I32Le(UsizeAsI32(|s|)) && r[5..] == s
  {
    var r := PutStr(s);
    assert r[1..] == I32Le(UsizeAsI32(|s|)) + s;
    SliceOfSlice(r, 1, |r|, 0, 4);
  }

  function TakeByte(s: seq<Byte>): (r: Option<(Byte, seq<Byte>)>)
    ensures r.Some? <==> |s| >= 1
    ensures r.Some? ==> s == [r.value.0] + r.value.1
  {
    if |s| < 1 then None else Some((s[0], s[1..]))
  }

  /** A flag byte as the request encoders write it: only 0 and 1 occur. */
  function TakeFlag(s: seq<Byte>): (r: Option<(bool, seq<Byte>)>)
    ensures r.Some? <==> |s| >= 1 && (s[0] == 0 || s[0] == 1)
    ensures r.Some? ==> s == [BoolByte(r.value.0)] + r.value.1
  {
    if |s| < 1 || s[0] > 1 then None else Some((s[0] == 1, s[1..]))
  }

  function TakeI16(s: seq<Byte>): (r: Option<(Int16, seq<Byte>)>)
    ensures r.Some? <==> |s| >= 2
  {
    if |s| < 2 then None else Some((I16FromLe(s[..2]), s[2..]))
  }

  function TakeI32(s: seq<Byte>): (r: Option<(Int32, seq<Byte>)>)
    ensures r.Some? <==> |s| >= 4
  {
    if |s| < 4 then None else Some((I32FromLe(s[..4]), s[4..]))
  }

  function TakeI64(s: seq<Byte>): (r: Option<(Int64, seq<Byte>)>)
    ensures r.Some? <==> |s| >= 8
  {
    if |s| < 8 then None else Some((I64FromLe(s[..8]), s[8..]))
  }

  /** Takes `n` bytes that must be well-formed UTF-8. */
  function TakeText(s: seq<Byte>, n: int): (r: Option<(Text, seq<Byte>)>)
    ensures r.Some? <==> 0 <= n <= |s| && ValidUtf8(s[..n])
    ensures r.Some? ==> |r.value.0| == n && s == r.value.0 + r.value.1
  {
    if n < 0 || n > |s| || !ValidUtf8(s[..n]) then None
    else
      assert s == s[..n] + s[n..];
      Some((s[..n], s[n..]))
  }

  /** Takes a general string field. */
  function TakeStr(s: seq<Byte>): (r: Option<(Text, seq<Byte>)>)
    ensures r.Some? ==> |s| == Len.Str(r.value.0) + |r.value.1|
  {
    var (marker, afterMarker) :- TakeByte(s);
    if marker != STRING_MARKER then None
    else
      var (n, afterLength) :- TakeI32(afterMarker);
      TakeText(afterLength, n)
  }

  /** Takes a handshake credential. */
  function TakeCredential(s: seq<Byte>): (r: Option<(Text, seq<Byte>)>)
    ensures r.Some? ==> |s| == 4 + |r.value.0| + |r.value.1|
  {
    var (n, afterLength) :- TakeI32(s);
    TakeText(afterLength, n)
  }

  // Each reader recovers what the matching writer put in front of `rest`.

  lemma TakeI16Put(x: Int16, rest: seq<Byte>)
    ensures TakeI16(I16Le(x) + rest) == Some((x, rest))
  {
    var s := I16Le(x) + rest;
    assert s[..2] == I16Le(x) && s[2..] == rest;
    I16RoundTrip(x);
  }

  lemma TakeI32Put(x: Int32, rest: seq<Byte>)
    ensures TakeI32(I32Le(x) + rest) == Some((x, rest))
  {
    var s := I32Le(x) + rest;
    assert s[..4] == I32Le(x) && s[4..] == rest;
    I32RoundTrip(x);
  }

  lemma TakeI64Put(x: Int64, rest: seq<Byte>)
    ensures TakeI64(I64Le(x) + rest) == Some((x, rest))
  {
    var s := I64Le(x) + rest;
    assert s[..8] == I64Le(x) && s[8..] == rest;
    I64RoundTrip(x);
  }

  lemma TakeFlagPut(b: bool, rest: seq<Byte>)
    ensures TakeFlag([BoolByte(b)] + rest) == Some((b, rest))
  {
    assert ([BoolByte(b)] + rest)[1..] == rest;
  }

  lemma TakeStrPut(s: Text, rest: seq<Byte>)
    requires |s| < TWO_31
    ensures TakeStr(PutStr(s) + rest) == Some((s, rest))
  {
    var e := PutStr(s) + rest;
    assert e == [STRING_MARKER] + (I32Le(|s|) + (s + rest));
    assert e[1..] == I32Le(|s|) + (s + rest);
    TakeI32Put(|s|, s + rest);
    assert (s + rest)[..|s|] == s && (s + rest)[|s|..] == rest;
  }

  lemma TakeCredentialPut(s: Text, rest: seq<Byte>)
    requires |s| < TWO_31
    ensures TakeCredential(PutCredential(s) + rest) == Some((s, rest))
  {
    assert PutCredential(s) + rest == I32Le(|s|) + (s + rest);
    TakeI32Put(|s|, s + rest);
    assert (s + rest)[..|s|] == s && (s + rest)[|s|..] == rest;
  }

  // Conversely, whatever a reader accepts is exactly what the writer puts in
  // front of the rest: no two encodings read the same.

  lemma TakeI16Split(s: seq<Byte>)
    requires TakeI16(s).Some?
    ensures s == I16Le(TakeI16(s).value.0) + TakeI16(s).value.1
  {
    I16Canonical(s[..2]);
    assert s == s[..2] + s[2..];
  }

  lemma TakeI32Split(s: seq<Byte>)
    requires TakeI32(s).Some?
    ensures s == I32Le(TakeI32(s).value.0) + TakeI32(s).value.1
  {
    I32Canonical(s[..4]);
    assert s == s[..4] + s[4..];
  }

  lemma TakeI64Split(s: seq<Byte>)
    requires TakeI64(s).Some?
    ensures s == I64Le(TakeI64(s).value.0) + TakeI64(s).value.1
  {
    I64Canonical(s[..8]);
    assert s == s[..8] + s[8..];
  }

  lemma TakeStrSplit(s: seq<Byte>)
    requires TakeStr(s).Some?
    ensures var (t, rest) := TakeStr(s).value;
      |t| < TWO_31 && s == PutStr(t) + rest
  {
    var (t, rest) := TakeStr(s).value;
    TakeI32Split(s[1..]);
    assert s == [s[0]] + s[1..];
  }

  lemma TakeCredentialSplit(s: seq<Byte>)
    requires TakeCredential(s).Some?
    ensures var (t, rest) := TakeCredential(s).value;
      |t| < TWO_31 && s == PutCredential(t) + rest
  {
    TakeI32Split(s);
  }
}

=== FILE: handshake.dfy ===
/** The handshake exchange: the client's request and the server's reply
    (`HandshakeRequest::encode`, `HandshakeResponse::decode`). */
module Handshake {
  import opened Bytes
  import opened Utf8
  import opened Outcomes
  import opened Fields

  datatype HandshakeRequest = HandshakeRequest(
    majorVersion: Int16,
    minorVersion: Int16,
    patchVersion: Int16,
    username: Text,
    password: Text)

  datatype HandshakeResponse =
    | Success
    | Failure(majorVersion: Int16, minorVersion: Int16, patchVersion: Int16, errorMessage: Text)

  /** The handshake operation code and the client type the request carries. */
  const HANDSHAKE_CODE: Byte := 1
  const CLIENT_TYPE: Byte := 2

  /** The payload size `length()` reports: everything after the i32 prefix. */
  function Length(r: HandshakeRequest): (n: nat)
    ensures n == 16 + |r.username| + |r.password|
  {
    1 + 2 + 2 + 2 + 1 + 4 + |r.username| + 4 + |r.password|
  }

  /** The bytes `HandshakeRequest::encode` produces: the payload size cast
      to i32, then the payload. */
  function Encode(r: HandshakeRequest): (e: seq<Byte>)
    ensures |e| == Length(r) + 4
  {
    I32Le(UsizeAsI32(Length(r))) + ([HANDSHAKE_CODE] + (I16Le(r.majorVersion)
      + (I16Le(r.minorVersion) + (I16Le(r.patchVersion) + ([CLIENT_TYPE] + Credentials(r))))))
  }

  /** The credentials part of the request: both credentials back to back. */
  function Credentials(r: HandshakeRequest): (c: seq<Byte>)
    ensures |c| == 8 + |r.username| + |r.password|
  {
    PutCredential(r.username) + PutCredential(r.password)
  }

  /** The request's fixed header ends at offset 12; the credentials follow. */
  lemma EncodeSplit(r: HandshakeRequest)
    ensures var e := Encode(r);
      && e[..4] == I32Le(UsizeAsI32(Length(r)))
      && e[4] == HANDSHAKE_CODE
      && e[5..7] == I16Le(r.majorVersion)
      && e[7..] == I16Le(r.minorVersion) + (I16Le(r.patchVersion) + ([CLIENT_TYPE] + Credentials(r)))
  {
    Layout4(I32Le(UsizeAsI32(Length(r))), [HANDSHAKE_CODE], I16Le(r.majorVersion),
      I16Le(r.minorVersion) + (I16Le(r.patchVersion) + ([CLIENT_TYPE] + Credentials(r))));
  }

  /** Where the fixed fields land: the prefix at 0-3, the code at 4, the
      version triple at 5-10 and the client type at 11. */
  lemma EncodeHeaderLayout(r: HandshakeRequest)
    ensures var e := Encode(r);
      && e[..4] == I32Le(UsizeAsI32(Length(r)))
      && e[4] == HANDSHAKE_CODE && e[11] == CLIENT_TYPE
      && e[5..7] == I16Le(r.majorVersion)
      && e[7..9] == I16Le(r.minorVersion)
      && e[9..11] == I16Le(r.patchVersion)
  {
    var e := Encode(r);
    EncodeSplit(r);
    Layout4(I16Le(r.minorVersion), I16Le(r.patchVersion), [CLIENT_TYPE], Credentials(r));
    SliceOfSlice(e, 7, |e|, 0, 2);
    SliceOfSlice(e, 7, |e|, 2, 4);
  }

  /** Where the two credentials sit within the credentials part. */
  lemma CredentialsLayout(r: HandshakeRequest)
    ensures var c := Credentials(r); var u := |r.username|;
      && c[..4] == I32Le(UsizeAsI32(u)) && c[4..4 + u] == r.username
      && c[4 + u..8 + u] == I32Le(UsizeAsI32(|r.password|))
      && c[8 + u..] == r.password
  {
    var u := |r.username|;
    Layout4(I32Le(UsizeAsI32(u)), r.username, I32Le(UsizeAsI32(|r.password|)), r.password);
    assert Credentials(r) == I32Le(UsizeAsI32(u)) + (r.username
      + (I32Le(UsizeAsI32(|r.password|)) + r.password));
  }

  /** From offset 12 on: the username and then the password, each an i32
      byte count and the bytes, with no marker byte. */
  lemma EncodeCredentialsLayout(r: HandshakeRequest)
    ensures var e := Encode(r); var u := |r.username|;
      && e[12..16] == I32Le(UsizeAsI32(u)) && e[16..16 + u] == r.username
      && e[16 + u..20 + u] == I32Le(UsizeAsI32(|r.password|))
      && e[20 + u..] == r.password
  {
    CredentialsAt(r);
    CredentialsFrom12(Encode(r), r);
  }

  /** Any sequence holding the credentials from offset 12 on has them at
      the offsets above. */
  lemma CredentialsFrom12(e: seq<Byte>, r: HandshakeRequest)
    requires |e| >= 12 && e[12..] == Credentials(r)
    ensures var u := |r.username|;
      && e[12..16] == I32Le(UsizeAsI32(u)) && e[16..16 + u] == r.username
      && e[16 + u..20 + u] == I32Le(UsizeAsI32(|r.password|))
      && e[20 + u..] == r.password
  {
    var u := |r.username|;
    CredentialsLayout(r);
    SliceOfSlice(e, 12, |e|, 0, 4);
    SliceOfSlice(e, 12, |e|, 4, 4 + u);
    SliceOfSlice(e, 12, |e|, 4 + u, 8 + u);
  }

  /** The credentials start at offset 12. */
  lemma CredentialsAt(r: HandshakeRequest)
    ensures Encode(r)[12..] == Credentials(r)
  {
    var e := Encode(r);
    EncodeSplit(r);
    Layout4(I16Le(r.minorVersion), I16Le(r.patchVersion), [CLIENT_TYPE], Credentials(r));
    SliceOfSlice(e, 7, |e|, 5, |e| - 7);
  }

  /** Server-side reading of a handshake request: the reference layout the
      encoder is checked against. */
  function ParseRequest(e: seq<Byte>): (r: Option<HandshakeRequest>)
    ensures r.Some? ==> |e| == Length(r.value) + 4
  {
    var (length, payload) :- TakeI32(e);
    var (code, afterCode) :- TakeByte(payload);
    var (major, afterMajor) :- TakeI16(afterCode);
    var (minor, afterMinor) :- TakeI16(afterMajor);
    var (patch, afterPatch) :- TakeI16(afterMinor);
    var (clientType, afterType) :- TakeByte(afterPatch);
    var (username, password) :- ParseCredentials(afterType);
    if length != |payload| || code != HANDSHAKE_CODE || clientType != CLIENT_TYPE then None
    else Some(HandshakeRequest(major, minor, patch, username, password))
  }

  /** The credentials part read back: two credentials and nothing after. */
  function ParseCredentials(s: seq<Byte>): (r: Option<(Text, Text)>)
    ensures r.Some? ==> |s| == 8 + |r.value.0| + |r.value.1|
  {
    var (username, afterUsername) :- TakeCredential(s);
    var (password, rest) :- TakeCredential(afterUsername);
    if rest != [] then None else Some((username, password))
  }

  lemma ParseCredentialsPut(r: HandshakeRequest)
    requires |r.username| < TWO_31 && |r.password| < TWO_31
    ensures ParseCredentials(Credentials(r)) == Some((r.username, r.password))
  {
    TakeCredentialPut(r.username, PutCredential(r.password));
    TakeCredentialPut(r.password, []);
    assert PutCredential(r.password) + [] == PutCredential(r.password);
  }

  /** The two credentials a request was read with are what its credentials
      part writes. */
  lemma CredentialsOfParse(r: HandshakeRequest, s: seq<Byte>)
    requires ParseCredentials(s) == Some((r.username, r.password))
    ensures Credentials(r) == s
  {
    TakeCredentialSplit(s);
    TakeCredentialSplit(TakeCredential(s).value.1);
    assert PutCredential(r.password) + [] == PutCredential(r.password);
  }

  /** Every request whose size fits the i32 prefix is read back intact. */
  lemma ParseEncode(r: HandshakeRequest)
    requires Length(r) < TWO_31
    ensures ParseRequest(Encode(r)) == Some(r)
  {
    var afterPatch := [CLIENT_TYPE] + Credentials(r);
    var afterMinor := I16Le(r.patchVersion) + afterPatch;
    var afterMajor := I16Le(r.minorVersion) + afterMinor;
    var afterCode := I16Le(r.majorVersion) + afterMajor;
    var payload := [HANDSHAKE_CODE] + afterCode;
    TakeI32Put(Length(r), payload);
    assert payload[1..] == afterCode;
    TakeI16Put(r.majorVersion, afterMajor);
    TakeI16Put(r.minorVersion, afterMinor);
    TakeI16Put(r.patchVersion, afterPatch);
    assert afterPatch[1..] == Credentials(r);
    ParseCredentialsPut(r);
  }

  /** Conversely, a request the server accepts is exactly one the client
      could have sent. */
  lemma EncodeParse(e: seq<Byte>)
    requires ParseRequest(e).Some?
    ensures Encode(ParseRequest(e).value) == e
  {
    var r := ParseRequest(e).value;
    var payload := TakeI32(e).value.1;
    TakeI32Split(e);
    var afterCode := payload[1..];
    TakeI16Split(afterCode);
    var afterMajor := TakeI16(afterCode).value.1;
    TakeI16Split(afterMajor);
    var afterMinor := TakeI16(afterMajor).value.1;
    TakeI16Split(afterMinor);
    var afterPatch := TakeI16(afterMinor).value.1;
    CredentialsOfParse(r, afterPatch[1..]);
    assert payload == [payload[0]] + afterCode;
    assert afterPatch == [afterPatch[0]] + afterPatch[1..];
    EncodeOfParts(r, e, payload, afterCode, afterMajor, afterMinor, afterPatch);
  }

  /** A buffer assembled from the request's fields in the encoder's order,
      with the payload size in front, is the request's encoding. */
  lemma EncodeOfParts(r: HandshakeRequest, e: seq<Byte>, payload: seq<Byte>, afterCode: seq<Byte>,
                      afterMajor: seq<Byte>, afterMinor: seq<Byte>, afterPatch: seq<Byte>)
    requires Length(r) < TWO_31 && e == I32Le(Length(r)) + payload
    requires payload == [HANDSHAKE_CODE] + afterCode
    requires afterCode == I16Le(r.majorVersion) + afterMajor
    requires afterMajor == I16Le(r.minorVersion) + afterMinor
    requires afterMinor == I16Le(r.patchVersion) + afterPatch
    requires afterPatch == [CLIENT_TYPE] + Credentials(r)
    ensures Encode(r) == e
  {
    assert UsizeAsI32(Length(r)) == Length(r);
  }

  /** The bytes `HandshakeResponse::decode` reads. An empty reply is an
      error; a first byte of 1 is success whatever follows; otherwise the
      reply must hold the version triple, else the slice indexing panics, and
      the rest of the reply is the message, which must be UTF-8. */
  function DecodeResponse(data: seq<Byte>): (r: Outcome<HandshakeResponse>)
    ensures |data| == 0 ==> r == Err(Other(EMPTY_RESPONSE))
    ensures |data| > 0 && data[0] == 1 ==> r == Ok(Success)
    ensures r.Panic? <==> |data| > 0 && data[0] != 1 && |data| < 7
    ensures |data| >= 7 && data[0] != 1 ==>
      (r.Ok? <==> ValidUtf8(data[7..]))
      && (r.Ok? ==> r.value == Failure(
            I16FromLe(data[1..3]), I16FromLe(data[3..5]), I16FromLe(data[5..7]), data[7..]))
      && (!r.Ok? ==> r == Err(InvalidData))
  {
    if |data| == 0 then Err(Other(EMPTY_RESPONSE))
    else if data[0] == 1 then Ok(Success)
    else if |data| < 7 then Panic
    else
      var major := I16FromLe(data[1..3]);
      var minor := I16FromLe(data[3..5]);
      var patch := I16FromLe(data[5..7]);
      if !ValidUtf8(data[7..]) then Err(InvalidData)
      else Ok(Failure(major, minor, patch, data[7..]))
  }

  /** The reply a server sends: one success byte, or a zero byte, the
      version it supports and the reason. */
  function EncodeResponse(resp: HandshakeResponse): (e: seq<Byte>)
    ensures |e| >= 1 && (e[0] == 1 <==> resp.Success?)
  {
    match resp
    case Success => [1]
    case Failure(major, minor, patch, message) =>
      [0] + I16Le(major) + I16Le(minor) + I16Le(patch) + message
  }

  /** The client decodes every reply a server can send to what was sent. */
  lemma DecodeEncodeResponse(resp: HandshakeResponse)
    ensures DecodeResponse(EncodeResponse(resp)) == Ok(resp)
  {
    if resp.Failure? {
      var e := EncodeResponse(resp);
      assert e[1..3] == I16Le(resp.majorVersion);
      assert e[3..5] == I16Le(resp.minorVersion);
      assert e[5..7] == I16Le(resp.patchVersion);
      assert e[7..] == resp.errorMessage;
      I16RoundTrip(resp.majorVersion);
      I16RoundTrip(resp.minorVersion);
      I16RoundTrip(resp.patchVersion);
    }
  }

  /** Conversely, a reply the client accepts is what a server writes for the
      decoded value, up to what the decoder ignores: the bytes after a
      success byte, and which non-1 byte marks a failure. */
  lemma EncodeDecodeResponse(data: seq<Byte>)
    requires DecodeResponse(data).Ok?
    ensures DecodeResponse(data).value.Success? ==> EncodeResponse(DecodeResponse(data).value) == data[..1]
    ensures DecodeResponse(data).value.Failure? && data[0] == 0 ==>
      EncodeResponse(DecodeResponse(data).value) == data
  {
    if data[0] != 1 {
      I16Canonical(data[1..3]);
      I16Canonical(data[3..5]);
      I16Canonical(data[5..7]);
      assert data == [data[0]] + data[1..3] + data[3..5] + data[5..7] + data[7..];
    }
  }

  /** The failure reply `[0, 1,0, 2,0, 0,0, 'b','a','d']`. */
  lemma DecodeBadVersionExample()
    ensures DecodeResponse([0, 1, 0, 2, 0, 0, 0, 98, 97, 100])
      == Ok(Failure(1, 2, 0, [98, 97, 100]))
  {
    var data: seq<Byte> := [0, 1, 0, 2, 0, 0, 0, 98, 97, 100];
    assert data[7..] == [98, 97, 100];
    AsciiIsValid(data[7..]);
  }

  /** A version-1.0.0 request with empty credentials reads back as itself. */
  lemma EmptyCredentialsExample()
    ensures ParseRequest(Encode(HandshakeRequest(1, 0, 0, [], []))) == Some(HandshakeRequest(1, 0, 0, [], []))
  {
    ParseEncode(HandshakeRequest(1, 0, 0, [], []));
  }
}

=== FILE: len.dfy ===
/** The field-width table the request bodies' `length()` methods add up. */
module Len {
  import opened Bytes

  // Widths of the integer fields: i32 fields are 4 bytes, the i64 timeout 8.
  const CACHE_ID: nat := 4
  const CURSOR_PAGE_SIZE: nat := 4
  const MAX_ROWS: nat := 4
  const QUERY_ARG_COUNT: nat := 4
  const TIMEOUT: nat := 8

  // Widths of the flag and enum fields: one byte each.
  const COLLOCATED: nat := 1
  const DISTRIBUTED_JOIN: nat := 1
  const ENFORCE_JOIN_ORDER: nat := 1
  const INCLUDE_FIELD_NAMES: nat := 1
  const LAZY: nat := 1
  const LOCAL_QUERY: nat := 1
  const REPLICATED_ONLY: nat := 1
  const STATEMENT_TYPE: nat := 1

  /** The encoded size of a general string field holding `s`: a marker byte,
      an i32 byte count, then the bytes. */
  function Str(s: seq<Byte>): (n: nat)
    ensures n >= 5
    ensures n - |s| == 5
  {
    1 + 4 + |s|
  }

  lemma StrOfEmpty()
    ensures Str([]) == 5
  {
  }

  /** A longer string always takes more room. */
  lemma StrStrictlyIncreasing(a: seq<Byte>, b: seq<Byte>)
    requires |a| < |b|
    ensures Str(a) < Str(b)
  {
  }

  /** Each constant is the width of the write it accounts for. */
  lemma WidthsMatchWrites(x: Int32, t: Int64, flag: bool)
    ensures CACHE_ID == |I32Le(x)| && CURSOR_PAGE_SIZE == |I32Le(x)|
    ensures MAX_ROWS == |I32Le(x)| && QUERY_ARG_COUNT == |I32Le(x)|
    ensures TIMEOUT == |I64Le(t)|
    ensures COLLOCATED == |[BoolByte(flag)]| && DISTRIBUTED_JOIN == |[BoolByte(flag)]|
    ensures ENFORCE_JOIN_ORDER == |[BoolByte(flag)]| && INCLUDE_FIELD_NAMES == |[BoolByte(flag)]|
    ensures LAZY == |[BoolByte(flag)]| && LOCAL_QUERY == |[BoolByte(flag)]|
    ensures REPLICATED_ONLY == |[BoolByte(flag)]| && STATEMENT_TYPE == 1
  {
  }
}

=== FILE: outcome.dfy ===
/** Result types of the codec.

  The Rust decoders return `io::Result<T>`, and in addition they can panic
  when they index past the end of a slice. `Outcome` keeps the three cases
  apart: a value, an `io::Error` the source constructs, or a panic.
 */
module Outcomes {

  /** The two `io::ErrorKind`s the codec constructs. The `InvalidData` error
      wraps a `FromUtf8Error` whose text is not modelled. */
  datatype IoError = Other(message: string) | InvalidData

  /** The message the decoders give for an empty buffer. */
  const EMPTY_RESPONSE: string := "Empty response"

  datatype Outcome<+T> = Ok(value: T) | Err(error: IoError) | Panic {

    predicate IsFailure() {
      !Ok?
    }

    function PropagateFailure<U>(): (r: Outcome<U>)
      requires !Ok?
      ensures r.Err? <==> Err?
    {
      if Err? then Err(error) else Panic
    }

    function Extract(): T
      requires Ok?
    {
      value
    }
  }

  /** Used by the reference parsers that are the partners of the encoders. */
  datatype Option<+T> = None | Some(value: T) {

    predicate IsFailure() {
      None?
    }

    function PropagateFailure<U>(): Option<U>
      requires None?
    {
      None
    }

    function Extract(): T
      requires Some?
    {
      value
    }
  }
}

=== FILE: requests.dfy ===
/** The query requests: the two bodies, `StatementType`, and the envelope
    `Request::encode` wraps around them. */
module Requests {
  import opened Bytes
  import opened Utf8
  import opened Outcomes
  import opened Fields
  import Len

  /** The op codes are defined in a module that is not part of this model;
      they are left as unknown i16 constants. */
  const QUERY_SQL: Int16
  const QUERY_SQL_FIELDS: Int16

  /** The reserved byte after the cache id; always 0. */
  const RESERVED_FLAGS: Byte := 0

  datatype StatementType = Any | Select | Update

  /** The `#[repr(u8)]` discriminant written for a statement type. */
  function StatementTypeByte(t: StatementType): (b: Byte)
    ensures b <= 2
  {
    match t
    case Any => 0
    case Select => 1
    case Update => 2
  }

  /** Reference reading of a statement-type byte. */
  function StatementTypeOf(b: Byte): (r: Option<StatementType>)
    ensures r.Some? <==> b <= 2
    ensures r.Some? ==> StatementTypeByte(r.value) == b
  {
    if b == 0 then Some(Any) else if b == 1 then Some(Select)
    else if b == 2 then Some(Update) else None
  }

  /** The discriminants are distinct, so the byte identifies the variant. */
  lemma StatementTypeRoundTrip(t: StatementType)
    ensures StatementTypeOf(StatementTypeByte(t)) == Some(t)
  {
  }

  /** `QuerySqlRequest`; the argument values are never encoded and are not
      part of the model, only their count is. */
  datatype QuerySqlRequest = QuerySqlRequest(
    cacheId: Int32,
    table: Text,
    sql: Text,
    queryArgCount: Int32,
    distributedJoin: bool,
    localQuery: bool,
    replicatedOnly: bool,
    cursorPageSize: Int32,
    timeoutMilliseconds: Int64)

  datatype QuerySqlFieldsRequest = QuerySqlFieldsRequest(
    cacheId: Int32,
    schema: Text,
    cursorPageSize: Int32,
    maxRows: Int32,
    sql: Text,
    queryArgCount: Int32,
    statementType: StatementType,
    distributedJoin: bool,
    localQuery: bool,
    replicatedOnly: bool,
    enforceJoinOrder: bool,
    collocated: bool,
    lazy: bool,
    timeoutMilliseconds: Int64,
    includeFieldNames: bool)

  datatype RequestType = QuerySql(query: QuerySqlRequest) | QuerySqlFields(fieldsQuery: QuerySqlFieldsRequest)

  datatype Request = Request(opCode: Int16, requestId: Int64, body: RequestType)

  /** `QuerySqlRequest::length`, summed from the width table. */
  function QuerySqlLength(q: QuerySqlRequest): (n: nat)
    ensures n == 34 + |q.table| + |q.sql|
  {
    Len.CACHE_ID + 1 + Len.Str(q.table) + Len.Str(q.sql) + Len.QUERY_ARG_COUNT
    + Len.DISTRIBUTED_JOIN + Len.LOCAL_QUERY + Len.REPLICATED_ONLY
    + Len.CURSOR_PAGE_SIZE + Len.TIMEOUT
  }

  /** `QuerySqlFieldsRequest::length`, summed from the width table. */
  function QuerySqlFieldsLength(f: QuerySqlFieldsRequest): (n: nat)
    ensures n == 43 + |f.schema| + |f.sql|
  {
    Len.CACHE_ID + 1 + Len.Str(f.schema) + Len.CURSOR_PAGE_SIZE + Len.MAX_ROWS
    + Len.Str(f.sql) + Len.QUERY_ARG_COUNT + Len.STATEMENT_TYPE
    + Len.DISTRIBUTED_JOIN + Len.LOCAL_QUERY + Len.REPLICATED_ONLY
    + Len.ENFORCE_JOIN_ORDER + Len.COLLOCATED + Len.LAZY + Len.TIMEOUT
    + Len.INCLUDE_FIELD_NAMES
  }

  /** `QuerySqlRequest::encode`: the fields in declaration order. */
  function EncodeQuerySql(q: QuerySqlRequest): (e: seq<Byte>)
    ensures |e| == QuerySqlLength(q)
  {
    I32Le(q.cacheId) + ([RESERVED_FLAGS] + (PutStr(q.table) + (PutStr(q.sql)
      + QuerySqlTail(q))))
  }

  /** What follows the two strings: the argument count (the arguments
      themselves are never written), three flags, page size, timeout. */
  function QuerySqlTail(q: QuerySqlRequest): (e: seq<Byte>)
    ensures |e| == 19
  {
    I32Le(q.queryArgCount) + ([BoolByte(q.distributedJoin)] + ([BoolByte(q.localQuery)]
      + ([BoolByte(q.replicatedOnly)] + (I32Le(q.cursorPageSize)
      + I64Le(q.timeoutMilliseconds)))))
  }

  /** The cache id at 0-3, the reserved byte at 4, then the table name and
      the SQL text as general string fields. */
  lemma QuerySqlHeadLayout(q: QuerySqlRequest)
    ensures var e := EncodeQuerySql(q); var t := 10 + |q.table|;
      && e[..4] == I32Le(q.cacheId) && e[4] == RESERVED_FLAGS
      && e[5..t] == PutStr(q.table)
      && e[t..t + Len.Str(q.sql)] == PutStr(q.sql)
  {
    var e := EncodeQuerySql(q);
    var t := 10 + |q.table|;
    var afterTable := PutStr(q.sql) + QuerySqlTail(q);
    var afterReserved := PutStr(q.table) + afterTable;
    var afterCacheId := [RESERVED_FLAGS] + afterReserved;
    assert e[0..] == I32Le(q.cacheId) + afterCacheId;
    Peel(e, 0, 4, I32Le(q.cacheId), afterCacheId);
    PeelByte(e, 4, RESERVED_FLAGS, afterReserved);
    Peel(e, 5, t, PutStr(q.table), afterTable);
    Peel(e, t, t + Len.Str(q.sql), PutStr(q.sql), QuerySqlTail(q));
    assert e[..4] == e[0..4];
  }

  /** Where each field of the fixed-size tail sits within it. */
  lemma QuerySqlTailParts(q: QuerySqlRequest)
    ensures var t := QuerySqlTail(q);
      && t[..4] == I32Le(q.queryArgCount)
      && t[4] == BoolByte(q.distributedJoin)
      && t[5] == BoolByte(q.localQuery)
      && t[6] == BoolByte(q.replicatedOnly)
      && t[7..11] == I32Le(q.cursorPageSize)
      && t[11..] == I64Le(q.timeoutMilliseconds)
  {
    var t := QuerySqlTail(q);
    var afterPageSize := I64Le(q.timeoutMilliseconds);
    var afterReplicated := I32Le(q.cursorPageSize) + afterPageSize;
    var afterLocal := [BoolByte(q.replicatedOnly)] + afterReplicated;
    var afterJoin := [BoolByte(q.localQuery)] + afterLocal;
    var afterArgCount := [BoolByte(q.distributedJoin)] + afterJoin;
    assert t[0..] == I32Le(q.queryArgCount) + afterArgCount;
    Peel(t, 0, 4, I32Le(q.queryArgCount), afterArgCount);
    PeelByte(t, 4, BoolByte(q.distributedJoin), afterJoin);
    PeelByte(t, 5, BoolByte(q.localQuery), afterLocal);
    PeelByte(t, 6, BoolByte(q.replicatedOnly), afterReplicated);
    Peel(t, 7, 11, I32Le(q.cursorPageSize), afterPageSize);
    assert t[..4] == t[0..4];
  }

  /** The body ends with the fixed-size tail, after the two strings. */
  lemma QuerySqlTailAt(q: QuerySqlRequest)
    ensures EncodeQuerySql(q)[15 + |q.table| + |q.sql|..] == QuerySqlTail(q)
  {
    var e := EncodeQuerySql(q);
    var t := 10 + |q.table|;
    var afterTable := PutStr(q.sql) + QuerySqlTail(q);
    var afterReserved := PutStr(q.table) + afterTable;
    var afterCacheId := [RESERVED_FLAGS] + afterReserved;
    assert e[0..] == I32Le(q.cacheId) + afterCacheId;
    Peel(e, 0, 4, I32Le(q.cacheId), afterCacheId);
    PeelByte(e, 4, RESERVED_FLAGS, afterReserved);
    Peel(e, 5, t, PutStr(q.table), afterTable);
    Peel(e, t, 15 + |q.table| + |q.sql|, PutStr(q.sql), QuerySqlTail(q));
  }

  /** The fixed-size tail starts at `p = 15 + |table| + |sql|`. */
  lemma QuerySqlTailLayout(q: QuerySqlRequest)
    ensures var e := EncodeQuerySql(q); var p := 15 + |q.table| + |q.sql|;
      && e[p..p + 4] == I32Le(q.queryArgCount)
      && e[p + 4] == BoolByte(q.distributedJoin)
      && e[p + 5] == BoolByte(q.localQuery)
      && e[p + 6] == BoolByte(q.replicatedOnly)
      && e[p + 7..p + 11] == I32Le(q.cursorPageSize)
      && e[p + 11..] == I64Le(q.timeoutMilliseconds)
  {
    var e := EncodeQuerySql(q);
    var p := 15 + |q.table| + |q.sql|;
    QuerySqlTailAt(q);
    QuerySqlTailParts(q);
    SliceOfSlice(e, p, |e|, 0, 4);
    SliceOfSlice(e, p, |e|, 7, 11);
  }

  /** `QuerySqlFieldsRequest::encode`: the fields in declaration order. */
  function EncodeQuerySqlFields(f: QuerySqlFieldsRequest): (e: seq<Byte>)
    ensures |e| == QuerySqlFieldsLength(f)
  {
    I32Le(f.cacheId) + ([RESERVED_FLAGS] + (PutStr(f.schema) + (I32Le(f.cursorPageSize)
      + (I32Le(f.maxRows) + (PutStr(f.sql) + QuerySqlFieldsTail(f))))))
  }

  /** What follows the SQL text: the argument count (the arguments
      themselves are never written), the statement type, six flags, the
      timeout and the include-field-names flag. */
  function QuerySqlFieldsTail(f: QuerySqlFieldsRequest): (e: seq<Byte>)
    ensures |e| == 20
  {
    I32Le(f.queryArgCount) + ([StatementTypeByte(f.statementType)]
      + ([BoolByte(f.distributedJoin)] + ([BoolByte(f.localQuery)]
      + ([BoolByte(f.replicatedOnly)] + QuerySqlFieldsOptions(f)))))
  }

  /** The last part of the tail, from the enforce-join-order flag on. */
  function QuerySqlFieldsOptions(f: QuerySqlFieldsRequest): (e: seq<Byte>)
    ensures |e| == 12
  {
    [BoolByte(f.enforceJoinOrder)] + ([BoolByte(f.collocated)] + ([BoolByte(f.lazy)]
      + (I64Le(f.timeoutMilliseconds) + [BoolByte(f.includeFieldNames)])))
  }

  /** The cache id at 0-3, the reserved byte at 4, the schema name as a
      general string field, then page size and max rows at `a = 10 + |schema|`
      and the SQL text after them. */
  lemma QuerySqlFieldsHeadLayout(f: QuerySqlFieldsRequest)
    ensures var e := EncodeQuerySqlFields(f); var a := 10 + |f.schema|;
      && e[..4] == I32Le(f.cacheId) && e[4] == RESERVED_FLAGS
      && e[5..a] == PutStr(f.schema)
      && e[a..a + 4] == I32Le(f.cursorPageSize)
      && e[a + 4..a + 8] == I32Le(f.maxRows)
      && e[a + 8..a + 8 + Len.Str(f.sql)] == PutStr(f.sql)
  {
    var e := EncodeQuerySqlFields(f);
    var a := 10 + |f.schema|;
    var afterSql := QuerySqlFieldsTail(f);
    var afterMaxRows := PutStr(f.sql) + afterSql;
    var afterPageSize := I32Le(f.maxRows) + afterMaxRows;
    var afterSchema := I32Le(f.cursorPageSize) + afterPageSize;
    var afterReserved := PutStr(f.schema) + afterSchema;
    var afterCacheId := [RESERVED_FLAGS] + afterReserved;
    assert e[0..] == I32Le(f.cacheId) + afterCacheId;
    Peel(e, 0, 4, I32Le(f.cacheId), afterCacheId);
    Peel(e, 4, 5, [RESERVED_FLAGS], afterReserved);
    Peel(e, 5, a, PutStr(f.schema), afterSchema);
    Peel(e, a, a + 4, I32Le(f.cursorPageSize), afterPageSize);
    Peel(e, a + 4, a + 8, I32Le(f.maxRows), afterMaxRows);
    Peel(e, a + 8, a + 8 + Len.Str(f.sql), PutStr(f.sql), afterSql);
    assert e[..4] == e[0..4];
    assert e[4] == e[4..5][0];
  }

  /** Where each field of the fixed-size tail sits within it. */
  lemma QuerySqlFieldsTailParts(f: QuerySqlFieldsRequest)
    ensures var t := QuerySqlFieldsTail(f);
      && t[..4] == I32Le(f.queryArgCount)
      && t[4] == StatementTypeByte(f.statementType)
      && t[5] == BoolByte(f.distributedJoin)
      && t[6] == BoolByte(f.localQuery)
      && t[7] == BoolByte(f.replicatedOnly)
      && t[8] == BoolByte(f.enforceJoinOrder)
      && t[9] == BoolByte(f.collocated)
      && t[10] == BoolByte(f.lazy)
      && t[11..19] == I64Le(f.timeoutMilliseconds)
      && t[19] == BoolByte(f.includeFieldNames)
  {
    var t := QuerySqlFieldsTail(f);
    var afterTimeout := [BoolByte(f.includeFieldNames)];
    var afterLazy := I64Le(f.timeoutMilliseconds) + afterTimeout;
    var afterCollocated := [BoolByte(f.lazy)] + afterLazy;
    var afterOrder := [BoolByte(f.collocated)] + afterCollocated;
    var options := [BoolByte(f.enforceJoinOrder)] + afterOrder;
    var afterLocal := [BoolByte(f.replicatedOnly)] + options;
    var afterJoin := [BoolByte(f.localQuery)] + afterLocal;
    var afterType := [BoolByte(f.distributedJoin)] + afterJoin;
    var afterArgCount := [StatementTypeByte(f.statementType)] + afterType;
    assert options == QuerySqlFieldsOptions(f);
    assert t[0..] == I32Le(f.queryArgCount) + afterArgCount;
    Peel(t, 0, 4, I32Le(f.queryArgCount), afterArgCount);
    PeelByte(t, 4, StatementTypeByte(f.statementType), afterType);
    PeelByte(t, 5, BoolByte(f.distributedJoin), afterJoin);
    PeelByte(t, 6, BoolByte(f.localQuery), afterLocal);
    PeelByte(t, 7, BoolByte(f.replicatedOnly), options);
    PeelByte(t, 8, BoolByte(f.enforceJoinOrder), afterOrder);
    PeelByte(t, 9, BoolByte(f.collocated), afterCollocated);
    PeelByte(t, 10, BoolByte(f.lazy), afterLazy);
    Peel(t, 11, 19, I64Le(f.timeoutMilliseconds), afterTimeout);
    PeelByte(t, 19, BoolByte(f.includeFieldNames), []);
    assert t[..4] == t[0..4];
  }

  /** The body ends with the fixed-size tail, after the two strings. */
  lemma QuerySqlFieldsTailAt(f: QuerySqlFieldsRequest)
    ensures EncodeQuerySqlFields(f)[23 + |f.schema| + |f.sql|..] == QuerySqlFieldsTail(f)
  {
    var e := EncodeQuerySqlFields(f);
    var a := 10 + |f.schema|;
    var afterSql := QuerySqlFieldsTail(f);
    var afterMaxRows := PutStr(f.sql) + afterSql;
    var afterPageSize := I32Le(f.maxRows) + afterMaxRows;
    var afterSchema := I32Le(f.cursorPageSize) + afterPageSize;
    var afterReserved := PutStr(f.schema) + afterSchema;
    var afterCacheId := [RESERVED_FLAGS] + afterReserved;
    assert e[0..] == I32Le(f.cacheId) + afterCacheId;
    Peel(e, 0, 4, I32Le(f.cacheId), afterCacheId);
    PeelByte(e, 4, RESERVED_FLAGS, afterReserved);
    Peel(e, 5, a, PutStr(f.schema), afterSchema);
    Peel(e, a, a + 4, I32Le(f.cursorPageSize), afterPageSize);
    Peel(e, a + 4, a + 8, I32Le(f.maxRows), afterMaxRows);
    Peel(e, a + 8, 23 + |f.schema| + |f.sql|, PutStr(f.sql), afterSql);
  }

  /** The fixed-size tail starts at `p = 23 + |schema| + |sql|`. */
  lemma QuerySqlFieldsTailLayout(f: QuerySqlFieldsRequest)
    ensures var e := EncodeQuerySqlFields(f); var p := 23 + |f.schema| + |f.sql|;
      && e[p..p + 4] == I32Le(f.queryArgCount)
      && e[p + 4] == StatementTypeByte(f.statementType)
      && e[p + 5] == BoolByte(f.distributedJoin)
      && e[p + 6] == BoolByte(f.localQuery)
      && e[p + 7] == BoolByte(f.replicatedOnly)
      && e[p + 8] == BoolByte(f.enforceJoinOrder)
      && e[p + 9] == BoolByte(f.collocated)
      && e[p + 10] == BoolByte(f.lazy)
      && e[p + 11..p + 19] == I64Le(f.timeoutMilliseconds)
      && e[p + 19] == BoolByte(f.includeFieldNames)
  {
    var e := EncodeQuerySqlFields(f);
    var p := 23 + |f.schema| + |f.sql|;
    QuerySqlFieldsTailAt(f);
    QuerySqlFieldsTailParts(f);
    SliceOfSlice(e, p, |e|, 0, 4);
    SliceOfSlice(e, p, |e|, 11, 19);
  }

  function TakeStatementType(s: seq<Byte>): (r: Option<(StatementType, seq<Byte>)>)
    ensures r.Some? ==> s == [StatementTypeByte(r.value.0)] + r.value.1
  {
    var (b, rest) :- TakeByte(s);
    var t :- StatementTypeOf(b);
    Some((t, rest))
  }

  /** Reference reading of a QuerySql body, field by field. */
  function ParseQuerySql(e: seq<Byte>): (r: Option<QuerySqlRequest>)
    ensures r.Some? ==> |e| == QuerySqlLength(r.value)
  {
    var (cacheId, afterCacheId) :- TakeI32(e);
    var (reserved, afterReserved) :- TakeByte(afterCacheId);
    var (table, afterTable) :- TakeStr(afterReserved);
    var (sql, tail) :- TakeStr(afterTable);
    if reserved != RESERVED_FLAGS then None
    else ParseQuerySqlTail(cacheId, table, sql, tail)
  }

  /** Reads the fixed-size tail and completes the request. */
  function ParseQuerySqlTail(cacheId: Int32, table: Text, sql: Text, tail: seq<Byte>)
    : (r: Option<QuerySqlRequest>)
    ensures r.Some? ==>
      |tail| == 19 && r.value.cacheId == cacheId && r.value.table == table && r.value.sql == sql
  {
    var (argCount, afterArgCount) :- TakeI32(tail);
    var (distributedJoin, afterJoin) :- TakeFlag(afterArgCount);
    var (localQuery, afterLocal) :- TakeFlag(afterJoin);
    var (replicatedOnly, afterReplicated) :- TakeFlag(afterLocal);
    var (pageSize, afterPageSize) :- TakeI32(afterReplicated);
    var (timeout, rest) :- TakeI64(afterPageSize);
    if rest != [] then None
    else Some(QuerySqlRequest(cacheId, table, sql, argCount,
      distributedJoin, localQuery, replicatedOnly, pageSize, timeout))
  }

  lemma ParseQuerySqlTailOfEncode(q: QuerySqlRequest)
    ensures ParseQuerySqlTail(q.cacheId, q.table, q.sql, QuerySqlTail(q)) == Some(q)
  {
    var afterPageSize := I64Le(q.timeoutMilliseconds);
    var afterReplicated := I32Le(q.cursorPageSize) + afterPageSize;
    var afterLocal := [BoolByte(q.replicatedOnly)] + afterReplicated;
    var afterJoin := [BoolByte(q.localQuery)] + afterLocal;
    var afterArgCount := [BoolByte(q.distributedJoin)] + afterJoin;
    TakeI32Put(q.queryArgCount, afterArgCount);
    TakeFlagPut(q.distributedJoin, afterJoin);
    TakeFlagPut(q.localQuery, afterLocal);
    TakeFlagPut(q.replicatedOnly, afterReplicated);
    TakeI32Put(q.cursorPageSize, afterPageSize);
    TakeI64Put(q.timeoutMilliseconds, []);
    assert afterPageSize + [] == afterPageSize;
  }

  lemma EncodeOfParseQuerySqlTail(cacheId: Int32, table: Text, sql: Text, tail: seq<Byte>)
    requires ParseQuerySqlTail(cacheId, table, sql, tail).Some?
    ensures QuerySqlTail(ParseQuerySqlTail(cacheId, table, sql, tail).value) == tail
  {
    var q := ParseQuerySqlTail(cacheId, table, sql, tail).value;
    var afterArgCount := TakeI32(tail).value.1;
    var afterJoin := TakeFlag(afterArgCount).value.1;
    var afterLocal := TakeFlag(afterJoin).value.1;
    var afterReplicated := TakeFlag(afterLocal).value.1;
    var afterPageSize := TakeI32(afterReplicated).value.1;
    TakeI64Split(afterPageSize);
    assert afterPageSize == I64Le(q.timeoutMilliseconds);
    TakeI32Split(afterReplicated);
    assert afterReplicated == I32Le(q.cursorPageSize) + afterPageSize;
    assert afterLocal == [BoolByte(q.replicatedOnly)] + afterReplicated;
    assert afterJoin == [BoolByte(q.localQuery)] + afterLocal;
    assert afterArgCount == [BoolByte(q.distributedJoin)] + afterJoin;
    TakeI32Split(tail);
  }

  /** Every field written is read back, and the argument count is the only
      trace the arguments leave. */
  lemma ParseEncodeQuerySql(q: QuerySqlRequest)
    requires |q.table| < TWO_31 && |q.sql| < TWO_31
    ensures ParseQuerySql(EncodeQuerySql(q)) == Some(q)
  {
    var afterTable := PutStr(q.sql) + QuerySqlTail(q);
    var afterReserved := PutStr(q.table) + afterTable;
    var afterCacheId := [RESERVED_FLAGS] + afterReserved;
    TakeI32Put(q.cacheId, afterCacheId);
    assert afterCacheId[1..] == afterReserved;
    TakeStrPut(q.table, afterTable);
    TakeStrPut(q.sql, QuerySqlTail(q));
    ParseQuerySqlTailOfEncode(q);
  }

  /** Conversely, a body the reference reading accepts is exactly the
      encoding of what it read. */
  lemma EncodeParseQuerySql(e: seq<Byte>)
    requires ParseQuerySql(e).Some?
    ensures EncodeQuerySql(ParseQuerySql(e).value) == e
  {
    TakeI32Split(e);
    var (cacheId, afterCacheId) := TakeI32(e).value;
    var afterReserved := afterCacheId[1..];
    assert afterCacheId == [afterCacheId[0]] + afterReserved;
    TakeStrSplit(afterReserved);
    var (table, afterTable) := TakeStr(afterReserved).value;
    TakeStrSplit(afterTable);
    var (sql, tail) := TakeStr(afterTable).value;
    EncodeOfParseQuerySqlTail(cacheId, table, sql, tail);
  }

  /** Reference reading of a QuerySqlFields body, field by field. The head
      is read here; the tail fields are filled in by the stages after it. */
  function ParseQuerySqlFields(e: seq<Byte>): (r: Option<QuerySqlFieldsRequest>)
    ensures r.Some? ==> |e| == QuerySqlFieldsLength(r.value)
  {
    var (cacheId, afterCacheId) :- TakeI32(e);
    var (reserved, afterReserved) :- TakeByte(afterCacheId);
    var (schema, afterSchema) :- TakeStr(afterReserved);
    var (pageSize, afterPageSize) :- TakeI32(afterSchema);
    var (maxRows, afterMaxRows) :- TakeI32(afterPageSize);
    var (sql, tail) :- TakeStr(afterMaxRows);
    if reserved != RESERVED_FLAGS then None
    else ParseQuerySqlFieldsTail(QuerySqlFieldsRequest(cacheId, schema, pageSize, maxRows,
      sql, 0, Any, false, false, false, false, false, false, 0, false), tail)
  }

  /** `g` agrees with `f` on the fields before the argument count. */
  predicate SameHead(f: QuerySqlFieldsRequest, g: QuerySqlFieldsRequest) {
    g.cacheId == f.cacheId && g.schema == f.schema && g.cursorPageSize == f.cursorPageSize
    && g.maxRows == f.maxRows && g.sql == f.sql
  }

  /** `g` agrees with `f` on the argument count, statement type and the
      first three flags. */
  predicate SameBeforeOptions(f: QuerySqlFieldsRequest, g: QuerySqlFieldsRequest) {
    g.queryArgCount == f.queryArgCount && g.statementType == f.statementType
    && g.distributedJoin == f.distributedJoin && g.localQuery == f.localQuery
    && g.replicatedOnly == f.replicatedOnly
  }

  /** Reads the argument count, the statement type and the first three
      flags into `f`, then the options. */
  function ParseQuerySqlFieldsTail(f: QuerySqlFieldsRequest, tail: seq<Byte>)
    : (r: Option<QuerySqlFieldsRequest>)
    ensures r.Some? ==> |tail| == 20 && SameHead(f, r.value)
  {
    var (argCount, afterArgCount) :- TakeI32(tail);
    var (statementType, afterType) :- TakeStatementType(afterArgCount);
    var (distributedJoin, afterJoin) :- TakeFlag(afterType);
    var (localQuery, afterLocal) :- TakeFlag(afterJoin);
    var (replicatedOnly, options) :- TakeFlag(afterLocal);
    ParseQuerySqlFieldsOptions(f.(queryArgCount := argCount, statementType := statementType,
      distributedJoin := distributedJoin, localQuery := localQuery,
      replicatedOnly := replicatedOnly), options)
  }

  /** Reads the last three flags, the timeout and include-field-names. */
  function ParseQuerySqlFieldsOptions(f: QuerySqlFieldsRequest, options: seq<Byte>)
    : (r: Option<QuerySqlFieldsRequest>)
    ensures r.Some? ==> |options| == 12 && SameHead(f, r.value) && SameBeforeOptions(f, r.value)
  {
    var (enforceJoinOrder, afterOrder) :- TakeFlag(options);
    var (collocated, afterCollocated) :- TakeFlag(afterOrder);
    var (lazy, afterLazy) :- TakeFlag(afterCollocated);
    var (timeout, afterTimeout) :- TakeI64(afterLazy);
    var (includeFieldNames, rest) :- TakeFlag(afterTimeout);
    if rest != [] then None
    else Some(f.(enforceJoinOrder := enforceJoinOrder, collocated := collocated, lazy := lazy,
      timeoutMilliseconds := timeout, includeFieldNames := includeFieldNames))
  }

  lemma ParseQuerySqlFieldsOptionsOfEncode(f: QuerySqlFieldsRequest, g: QuerySqlFieldsRequest)
    requires g == f.(enforceJoinOrder := g.enforceJoinOrder, collocated := g.collocated,
      lazy := g.lazy, timeoutMilliseconds := g.timeoutMilliseconds,
      includeFieldNames := g.includeFieldNames)
    ensures ParseQuerySqlFieldsOptions(f, QuerySqlFieldsOptions(g)) == Some(g)
  {
    var afterTimeout := [BoolByte(g.includeFieldNames)];
    var afterLazy := I64Le(g.timeoutMilliseconds) + afterTimeout;
    var afterCollocated := [BoolByte(g.lazy)] + afterLazy;
    var afterOrder := [BoolByte(g.collocated)] + afterCollocated;
    TakeFlagPut(g.enforceJoinOrder, afterOrder);
    TakeFlagPut(g.collocated, afterCollocated);
    TakeFlagPut(g.lazy, afterLazy);
    TakeI64Put(g.timeoutMilliseconds, afterTimeout);
    TakeFlagPut(g.includeFieldNames, []);
    assert afterTimeout + [] == afterTimeout;
  }

  lemma ParseQuerySqlFieldsTailOfEncode(f: QuerySqlFieldsRequest, g: QuerySqlFieldsRequest)
    requires g == f.(queryArgCount := g.queryArgCount, statementType := g.statementType,
      distributedJoin := g.distributedJoin, localQuery := g.localQuery,
      replicatedOnly := g.replicatedOnly, enforceJoinOrder := g.enforceJoinOrder,
      collocated := g.collocated, lazy := g.lazy, timeoutMilliseconds := g.timeoutMilliseconds,
      includeFieldNames := g.includeFieldNames)
    ensures ParseQuerySqlFieldsTail(f, QuerySqlFieldsTail(g)) == Some(g)
  {
    var options := QuerySqlFieldsOptions(g);
    var afterLocal := [BoolByte(g.replicatedOnly)] + options;
    var afterJoin := [BoolByte(g.localQuery)] + afterLocal;
    var afterType := [BoolByte(g.distributedJoin)] + afterJoin;
    var afterArgCount := [StatementTypeByte(g.statementType)] + afterType;
    TakeI32Put(g.queryArgCount, afterArgCount);
    assert afterArgCount[1..] == afterType;
    StatementTypeRoundTrip(g.statementType);
    TakeFlagPut(g.distributedJoin, afterJoin);
    TakeFlagPut(g.localQuery, afterLocal);
    TakeFlagPut(g.replicatedOnly, options);
    var f' := f.(queryArgCount := g.queryArgCount, statementType := g.statementType,
      distributedJoin := g.distributedJoin, localQuery := g.localQuery,
      replicatedOnly := g.replicatedOnly);
    ParseQuerySqlFieldsOptionsOfEncode(f', g);
  }

  lemma ParseEncodeQuerySqlFields(f: QuerySqlFieldsRequest)
    requires |f.schema| < TWO_31 && |f.sql| < TWO_31
    ensures ParseQuerySqlFields(EncodeQuerySqlFields(f)) == Some(f)
  {
    var afterMaxRows := PutStr(f.sql) + QuerySqlFieldsTail(f);
    var afterPageSize := I32Le(f.maxRows) + afterMaxRows;
    var afterSchema := I32Le(f.cursorPageSize) + afterPageSize;
    var afterReserved := PutStr(f.schema) + afterSchema;
    var afterCacheId := [RESERVED_FLAGS] + afterReserved;
    var e := EncodeQuerySqlFields(f);
    assert e == I32Le(f.cacheId) + afterCacheId;
    TakeI32Put(f.cacheId, afterCacheId);
    assert afterCacheId[1..] == afterReserved;
    TakeStrPut(f.schema, afterSchema);
    TakeI32Put(f.cursorPageSize, afterPageSize);
    TakeI32Put(f.maxRows, afterMaxRows);
    TakeStrPut(f.sql, QuerySqlFieldsTail(f));
    ParseQuerySqlFieldsTailOfEncode(QuerySqlFieldsRequest(f.cacheId, f.schema,
      f.cursorPageSize, f.maxRows, f.sql, 0, Any, false, false, false, false, false,
      false, 0, false), f);
    ParseQuerySqlFieldsOfParts(e, f, afterCacheId, afterReserved, afterSchema,
      afterPageSize, afterMaxRows, QuerySqlFieldsTail(f));
  }

  /** The reading of a body, assembled from what each of its reads returns. */
  lemma ParseQuerySqlFieldsOfParts(e: seq<Byte>, f: QuerySqlFieldsRequest,
                                   afterCacheId: seq<Byte>, afterReserved: seq<Byte>,
                                   afterSchema: seq<Byte>, afterPageSize: seq<Byte>,
                                   afterMaxRows: seq<Byte>, tail: seq<Byte>)
    requires TakeI32(e) == Some((f.cacheId, afterCacheId))
    requires TakeByte(afterCacheId) == Some((RESERVED_FLAGS, afterReserved))
    requires TakeStr(afterReserved) == Some((f.schema, afterSchema))
    requires TakeI32(afterSchema) == Some((f.cursorPageSize, afterPageSize))
    requires TakeI32(afterPageSize) == Some((f.maxRows, afterMaxRows))
    requires TakeStr(afterMaxRows) == Some((f.sql, tail))
    requires ParseQuerySqlFieldsTail(QuerySqlFieldsRequest(f.cacheId, f.schema,
      f.cursorPageSize, f.maxRows, f.sql, 0, Any, false, false, false, false, false,
      false, 0, false), tail) == Some(f)
    ensures ParseQuerySqlFields(e) == Some(f)
  {
  }

  lemma EncodeOfParseQuerySqlFieldsOptions(f: QuerySqlFieldsRequest, options: seq<Byte>)
    requires ParseQuerySqlFieldsOptions(f, options).Some?
    ensures QuerySqlFieldsOptions(ParseQuerySqlFieldsOptions(f, options).value) == options
  {
    var g := ParseQuerySqlFieldsOptions(f, options).value;
    var afterOrder := TakeFlag(options).value.1;
    var afterCollocated := TakeFlag(afterOrder).value.1;
    var afterLazy := TakeFlag(afterCollocated).value.1;
    var afterTimeout := TakeI64(afterLazy).value.1;
    assert afterTimeout == [BoolByte(g.includeFieldNames)];
    TakeI64Split(afterLazy);
    assert afterLazy == I64Le(g.timeoutMilliseconds) + afterTimeout;
    assert afterCollocated == [BoolByte(g.lazy)] + afterLazy;
    assert afterOrder == [BoolByte(g.collocated)] + afterCollocated;
  }

  lemma EncodeOfParseQuerySqlFieldsTail(f: QuerySqlFieldsRequest, tail: seq<Byte>)
    requires ParseQuerySqlFieldsTail(f, tail).Some?
    ensures QuerySqlFieldsTail(ParseQuerySqlFieldsTail(f, tail).value) == tail
  {
    TakeI32Split(tail);
    var (argCount, afterArgCount) := TakeI32(tail).value;
    var (statementType, afterType) := TakeStatementType(afterArgCount).value;
    var (distributedJoin, afterJoin) := TakeFlag(afterType).value;
    var (localQuery, afterLocal) := TakeFlag(afterJoin).value;
    var (replicatedOnly, options) := TakeFlag(afterLocal).value;
    EncodeOfParseQuerySqlFieldsOptions(f.(queryArgCount := argCount,
      statementType := statementType, distributedJoin := distributedJoin,
      localQuery := localQuery, replicatedOnly := replicatedOnly), options);
  }

  lemma EncodeParseQuerySqlFields(e: seq<Byte>)
    requires ParseQuerySqlFields(e).Some?
    ensures EncodeQuerySqlFields(ParseQuerySqlFields(e).value) == e
  {
    TakeI32Split(e);
    var (cacheId, afterCacheId) := TakeI32(e).value;
    var afterReserved := afterCacheId[1..];
    assert afterCacheId == [afterCacheId[0]] + afterReserved;
    TakeStrSplit(afterReserved);
    var (schema, afterSchema) := TakeStr(afterReserved).value;
    TakeI32Split(afterSchema);
    var (pageSize, afterPageSize) := TakeI32(afterSchema).value;
    TakeI32Split(afterPageSize);
    var (maxRows, afterMaxRows) := TakeI32(afterPageSize).value;
    TakeStrSplit(afterMaxRows);
    var (sql, tail) := TakeStr(afterMaxRows).value;
    EncodeOfParseQuerySqlFieldsTail(QuerySqlFieldsRequest(cacheId, schema, pageSize, maxRows,
      sql, 0, Any, false, false, false, false, false, false, 0, false), tail);
  }

  /** `Request::new_query_sql`. */
  function NewQuerySql(requestId: Int64, q: QuerySqlRequest): (r: Request)
    ensures r.opCode == QUERY_SQL && r.requestId == requestId
    ensures EncodeBody(r.body) == EncodeQuerySql(q)
    ensures RequestLength(r) == 10 + QuerySqlLength(q)
  {
    Request(QUERY_SQL, requestId, QuerySql(q))
  }

  /** `Request::new_query_sql_fields`. */
  function NewQuerySqlFields(requestId: Int64, f: QuerySqlFieldsRequest): (r: Request)
    ensures r.opCode == QUERY_SQL_FIELDS && r.requestId == requestId
    ensures EncodeBody(r.body) == EncodeQuerySqlFields(f)
    ensures RequestLength(r) == 10 + QuerySqlFieldsLength(f)
  {
    Request(QUERY_SQL_FIELDS, requestId, QuerySqlFields(f))
  }

  /** The encoding of the body alone, dispatched on its variant. */
  function EncodeBody(b: RequestType): (e: seq<Byte>)
    ensures b.QuerySql? ==> |e| == QuerySqlLength(b.query)
    ensures b.QuerySqlFields? ==> |e| == QuerySqlFieldsLength(b.fieldsQuery)
  {
    match b
    case QuerySql(q) => EncodeQuerySql(q)
    case QuerySqlFields(f) => EncodeQuerySqlFields(f)
  }

  /** `Request::length`: the op code, the request id and the body. */
  function RequestLength(r: Request): (n: nat)
    ensures n == 10 + |EncodeBody(r.body)|
  {
    2 + 8 + match r.body
      case QuerySql(q) => QuerySqlLength(q)
      case QuerySqlFields(f) => QuerySqlFieldsLength(f)
  }

  /** `Request::encode`: the length prefix, the op code at offsets 4-5, the
      request id at offsets 6-13, then exactly the body's own encoding. */
  function EncodeRequest(r: Request): (e: seq<Byte>)
    ensures |e| == RequestLength(r) + 4
  {
    I32Le(UsizeAsI32(RequestLength(r))) + (I16Le(r.opCode) + (I64Le(r.requestId)
      + EncodeBody(r.body)))
  }

  lemma EncodeRequestLayout(r: Request)
    ensures var e := EncodeRequest(r);
      && e[..4] == I32Le(UsizeAsI32(RequestLength(r)))
      && e[4..6] == I16Le(r.opCode) && e[6..14] == I64Le(r.requestId)
      && e[14..] == EncodeBody(r.body)
  {
    Layout4(I32Le(UsizeAsI32(RequestLength(r))), I16Le(r.opCode), I64Le(r.requestId),
      EncodeBody(r.body));
  }

  /** Reference reading of the envelope: the op code, the request id and
      the body bytes, provided the prefix counts exactly what follows. */
  function ParseEnvelope(e: seq<Byte>): (r: Option<(Int16, Int64, seq<Byte>)>)
    ensures r.Some? ==> |r.value.2| + 14 == |e|
  {
    if |e| < 14 || I32FromLe(e[..4]) != |e| - 4 then None
    else Some((I16FromLe(e[4..6]), I64FromLe(e[6..14]), e[14..]))
  }

  /** The prefix is `10 + body.length()`, and the op code, the request id
      and the body come back verbatim, whenever the size fits in an i32. */
  lemma ParseEnvelopeOfEncode(r: Request)
    requires RequestLength(r) < TWO_31
    ensures ParseEnvelope(EncodeRequest(r)) == Some((r.opCode, r.requestId, EncodeBody(r.body)))
    ensures I32FromLe(EncodeRequest(r)[..4]) == 10 + |EncodeBody(r.body)|
  {
    EncodeRequestLayout(r);
    I32RoundTrip(RequestLength(r));
    I16RoundTrip(r.opCode);
    I64RoundTrip(r.requestId);
  }

  /** An envelope the reader accepts is exactly the encoding of a request
      carrying what it read, whenever the body bytes are that body's encoding. */
  lemma EncodeOfParseEnvelope(e: seq<Byte>, r: Request)
    requires ParseEnvelope(e).Some?
    requires r.opCode == ParseEnvelope(e).value.0 && r.requestId == ParseEnvelope(e).value.1
    requires EncodeBody(r.body) == ParseEnvelope(e).value.2
    ensures EncodeRequest(r) == e
  {
    I32Canonical(e[..4]);
    I16Canonical(e[4..6]);
    I64Canonical(e[6..14]);
    assert e == e[..4] + (e[4..6] + (e[6..14] + e[14..]));
  }

  /** Every frame whose envelope and QuerySql body the readers accept is
      exactly `Request::encode` of the request they read. */
  lemma EncodeParseRequestQuerySql(e: seq<Byte>)
    requires ParseEnvelope(e).Some? && ParseQuerySql(ParseEnvelope(e).value.2).Some?
    ensures var env := ParseEnvelope(e).value;
      EncodeRequest(Request(env.0, env.1, QuerySql(ParseQuerySql(env.2).value))) == e
  {
    var env := ParseEnvelope(e).value;
    EncodeParseQuerySql(env.2);
    EncodeOfParseEnvelope(e, Request(env.0, env.1, QuerySql(ParseQuerySql(env.2).value)));
  }

  /** Likewise for a QuerySqlFields body. */
  lemma EncodeParseRequestQuerySqlFields(e: seq<Byte>)
    requires ParseEnvelope(e).Some? && ParseQuerySqlFields(ParseEnvelope(e).value.2).Some?
    ensures var env := ParseEnvelope(e).value;
      EncodeRequest(Request(env.0, env.1, QuerySqlFields(ParseQuerySqlFields(env.2).value))) == e
  {
    var env := ParseEnvelope(e).value;
    EncodeParseQuerySqlFields(env.2);
    EncodeOfParseEnvelope(e, Request(env.0, env.1, QuerySqlFields(ParseQuerySqlFields(env.2).value)));
  }

  /** A QuerySql request built by `new_query_sql` carries the QUERY_SQL op
      code and its id in the envelope, and its body reads back intact. */
  lemma NewQuerySqlFrame(requestId: Int64, q: QuerySqlRequest)
    requires |q.table| + |q.sql| < TWO_31 - 44
    ensures var e := EncodeRequest(NewQuerySql(requestId, q));
      && ParseEnvelope(e) == Some((QUERY_SQL, requestId, e[14..]))
      && ParseQuerySql(e[14..]) == Some(q)
  {
    ParseEnvelopeOfEncode(NewQuerySql(requestId, q));
    ParseEncodeQuerySql(q);
  }

  /** Likewise for `new_query_sql_fields`. */
  lemma NewQuerySqlFieldsFrame(requestId: Int64, f: QuerySqlFieldsRequest)
    requires |f.schema| + |f.sql| < TWO_31 - 53
    ensures var e := EncodeRequest(NewQuerySqlFields(requestId, f));
      && ParseEnvelope(e) == Some((QUERY_SQL_FIELDS, requestId, e[14..]))
      && ParseQuerySqlFields(e[14..]) == Some(f)
  {
    ParseEnvelopeOfEncode(NewQuerySqlFields(requestId, f));
    ParseEncodeQuerySqlFields(f);
  }
}

=== FILE: responses.dfy ===
/** The response side: `Response::decode_query_sql`,
    `Response::decode_query_sql_fields` and the two body decoders they call.

  A response buffer is the frame payload after its length prefix: the
  request id, the status code, then either the error text or the body. The
  decoders index the buffer directly, so a buffer that is too short panics;
  `Outcome.Panic` records that, and the contracts say exactly which inputs
  reach it. The server-side encoders at the end are the partners the
  decoders are checked against.
 */
module Responses {
  import opened Bytes
  import opened Utf8
  import opened Outcomes
  import opened Fields
  import Len

  datatype QuerySqlResponse = QuerySqlResponse(cursorId: Int64, rowCount: Int32, hasMore: bool)

  datatype QuerySqlFieldsResponse = QuerySqlFieldsResponse(
    cursorId: Int64,
    columnCount: Int32,
    columnNames: seq<Text>,
    firstPageRowCount: Int32,
    hasMore: bool)

  datatype ResponseType = QuerySql(query: QuerySqlResponse) | QuerySqlFields(fields: QuerySqlFieldsResponse)

  datatype Response = Response(requestId: Int64, statusCode: Int32, errorMessage: Text, body: ResponseType)

  /** The placeholder bodies a failed response carries: all zero, all false,
      no column names. */
  const ZERO_QUERY_SQL := QuerySqlResponse(0, 0, false)
  const ZERO_QUERY_SQL_FIELDS := QuerySqlFieldsResponse(0, 0, [], 0, false)

  /** How many times `for _ in 0..count` runs for an i32 `count`. */
  function RangeLength(count: Int32): (n: nat)
    ensures count <= 0 ==> n == 0
    ensures count >= 0 ==> n == count
  {
    if count < 0 then 0 else count
  }

  // ---------------------------------------------------------------------
  // Bodies

  /** `QuerySqlResponse::decode`: the cursor id at 0-7, the row count at
      8-11 and the has-more byte at 12; any bytes after it are ignored. */
  function DecodeQuerySqlResponse(data: seq<Byte>): (r: Outcome<QuerySqlResponse>)
    ensures |data| == 0 ==> r == Err(Other(EMPTY_RESPONSE))
    ensures r.Panic? <==> 0 < |data| < 13
    ensures r.Ok? <==> |data| >= 13
    ensures r.Ok? ==> (r.value.cursorId == I64FromLe(data[..8])
      && r.value.rowCount == I32FromLe(data[8..12])
      && (r.value.hasMore <==> data[12] == 1))
  {
    if |data| == 0 then Err(Other(EMPTY_RESPONSE))
    else if |data| < 13 then Panic
    else Ok(QuerySqlResponse(I64FromLe(data[..8]), I32FromLe(data[8..12]), IsTrue(data[12])))
  }

  /** The size of a run of column names, each a general string field. */
  function NamesSize(names: seq<Text>): (n: nat)
    ensures n >= 5 * |names|
  {
    if |names| == 0 then 0 else NamesSize(names[..|names| - 1]) + Len.Str(names[|names| - 1])
  }

  /** One iteration of the column-name loop of `QuerySqlFieldsResponse::decode`,
      at `offset`: skip one marker byte, read an i32 length, take that many
      UTF-8 bytes. A length field past the end panics at the index; a length
      that is negative or runs past the end panics at the slice. Returns the
      name and the offset after it. */
  function Column(data: seq<Byte>, offset: nat): (r: Outcome<(Text, nat)>)
    ensures r.Panic? <==> (offset + 5 > |data|
      || var length := I32FromLe(data[offset + 1..offset + 5]);
         length < 0 || offset + 5 + length > |data|)
    ensures r.Err? ==> r == Err(InvalidData)
    ensures offset + 5 <= |data| ==> (var length := I32FromLe(data[offset + 1..offset + 5]);
      0 <= length && offset + 5 + length <= |data| ==>
        (r.Ok? <==> ValidUtf8(data[offset + 5..offset + 5 + length])))
    ensures r.Ok? ==> (offset + 5 <= r.value.1 <= |data|
      && |r.value.0| == I32FromLe(data[offset + 1..offset + 5])
      && r.value.1 == offset + Len.Str(r.value.0)
      && r.value.0 == data[offset + 5..r.value.1])
  {
    if |data| < offset + 5 then Panic
    else
      var length := I32FromLe(data[offset + 1..offset + 5]);
      var start := offset + 5;
      if length < 0 || start + length > |data| then Panic
      else if !ValidUtf8(data[start..start + length]) then Err(InvalidData)
      else Ok((data[start..start + length], start + length))
  }

  /** The state of the column-name loop after its first `i` iterations: the
      names read so far and the offset of the next column, which starts at 12.
      The first column that fails ends the loop with its failure. */
  function ColumnNames(data: seq<Byte>, i: nat): (r: Outcome<(seq<Text>, nat)>)
    requires |data| >= 12
    ensures r.Ok? ==> |r.value.0| == i && 12 + 5 * i <= r.value.1 <= |data|
    ensures r.Err? ==> r == Err(InvalidData)
    decreases i
  {
    if i == 0 then Ok(([], 12))
    else
      var before := ColumnNames(data, i - 1);
      if !before.Ok? then before
      else
        var column := Column(data, before.value.1);
        if column.Panic? then Panic
        else if column.Err? then Err(InvalidData)
        else
          Ok((before.value.0 + [column.value.0], column.value.1))
  }

  /** One more successful iteration appends its name and moves the offset. */
  lemma ColumnNamesNext(data: seq<Byte>, i: nat, names: seq<Text>, offset: nat, name: Text, next: nat)
    requires |data| >= 12 && ColumnNames(data, i) == Ok((names, offset))
    requires Column(data, offset) == Ok((name, next))
    ensures ColumnNames(data, i + 1) == Ok((names + [name], next))
  {
  }

  /** Once an iteration fails, the loop's outcome stays that failure. */
  lemma {:induction false} ColumnNamesFailureStays(data: seq<Byte>, i: nat, k: nat)
    requires |data| >= 12 && i <= k && !ColumnNames(data, i).Ok?
    ensures ColumnNames(data, k) == ColumnNames(data, i)
    decreases k
  {
    if k > i {
      ColumnNamesFailureStays(data, i, k - 1);
    }
  }

  /** The loop advances by exactly the encoded size of the names it reads:
      after it, the offset is 12 plus the sizes of their string fields. */
  lemma {:induction false} ColumnNamesEnd(data: seq<Byte>, i: nat)
    requires |data| >= 12 && ColumnNames(data, i).Ok?
    ensures ColumnNames(data, i).value.1 == 12 + NamesSize(ColumnNames(data, i).value.0)
    decreases i
  {
    if i > 0 {
      var before := ColumnNames(data, i - 1);
      ColumnNamesEnd(data, i - 1);
      var names := ColumnNames(data, i).value.0;
      assert names[..|names| - 1] == before.value.0;
    }
  }

  /** The loop as the source writes it, with a mutable offset and a growing
      vector, returning at the first failure. */
  method ReadColumnNames(data: seq<Byte>, columnCount: Int32) returns (r: Outcome<(seq<Text>, nat)>)
    requires |data| >= 12
    ensures r == ColumnNames(data, RangeLength(columnCount))
  {
    var n := RangeLength(columnCount);
    var names: seq<Text> := [];
    var offset: nat := 12;
    var i: nat := 0;
    while i < n
      invariant i <= n
      invariant ColumnNames(data, i) == Ok((names, offset))
    {
      var column := Column(data, offset);
      if !column.Ok? {
        ColumnNamesFailureStays(data, i + 1, n);
        return if column.Panic? then Panic else Err(InvalidData);
      }
      names := names + [column.value.0];
      offset := column.value.1;
      i := i + 1;
    }
    return Ok((names, offset));
  }

  /** The two fields after the column names, at `offset`: the first-page
      row count and the has-more byte. */
  function RowCountAndMore(data: seq<Byte>, offset: nat): (r: Outcome<(Int32, bool)>)
    ensures !r.Err?
    ensures r.Panic? <==> |data| < offset + 5
    ensures r.Ok? ==> (r.value.0 == I32FromLe(data[offset..offset + 4])
      && (r.value.1 <==> data[offset + 4] == 1))
  {
    if |data| < offset + 5 then Panic
    else Ok((I32FromLe(data[offset..offset + 4]), IsTrue(data[offset + 4])))
  }

  /** `QuerySqlFieldsResponse::decode(data, has_field_names)`: the cursor id
      and column count, then, when names were asked for, one name per
      iteration of `0..column_count`, and last the first-page row count and
      the has-more byte. Without names those two follow the column count
      directly, at offset 12. */
  function DecodeQuerySqlFieldsResponse(data: seq<Byte>, hasFieldNames: bool)
    : (r: Outcome<QuerySqlFieldsResponse>)
    ensures |data| == 0 ==> r == Err(Other(EMPTY_RESPONSE))
    ensures 0 < |data| < 12 ==> r == Panic
    ensures r.Err? ==> |data| == 0 || r == Err(InvalidData)
    ensures r.Ok? ==> (|data| >= 12 && r.value.cursorId == I64FromLe(data[..8])
      && r.value.columnCount == I32FromLe(data[8..12]))
    ensures r.Ok? && hasFieldNames ==> |r.value.columnNames| == RangeLength(r.value.columnCount)
    ensures r.Ok? && hasFieldNames ==> (
      var names := ColumnNames(data, RangeLength(r.value.columnCount));
      names.Ok? && names.value.0 == r.value.columnNames
      && RowCountAndMore(data, names.value.1) == Ok((r.value.firstPageRowCount, r.value.hasMore)))
    ensures hasFieldNames && |data| >= 12 ==> (
      var names := ColumnNames(data, RangeLength(I32FromLe(data[8..12])));
      && (r.Panic? <==> names.Panic? || (names.Ok? && |data| < names.value.1 + 5))
      && (r.Err? <==> names.Err?))
    ensures !hasFieldNames ==> (r.Panic? <==> 0 < |data| < 17) && (r.Ok? <==> |data| >= 17)
    ensures r.Ok? && !hasFieldNames ==> (r.value.columnNames == []
      && r.value.firstPageRowCount == I32FromLe(data[12..16])
      && (r.value.hasMore <==> data[16] == 1))
  {
    if |data| == 0 then Err(Other(EMPTY_RESPONSE))
    else if |data| < 12 then Panic
    else
      var cursorId := I64FromLe(data[..8]);
      var columnCount := I32FromLe(data[8..12]);
      var (names, offset) :- if hasFieldNames then ColumnNames(data, RangeLength(columnCount))
        else Ok(([], 12));
      var (rowCount, hasMore) :- RowCountAndMore(data, offset);
      Ok(QuerySqlFieldsResponse(cursorId, columnCount, names, rowCount, hasMore))
  }

  // ---------------------------------------------------------------------
  // Envelope

  /** A failed response's error text is cut short: the length field at 13-16
      is missing, negative, or counts past the end of the buffer. A negative
      length cast to `usize` panics as well: the slice end either overflows
      or ends before its start. */
  predicate ErrorMessageTruncated(data: seq<Byte>) {
    |data| < 17 || var n := I32FromLe(data[13..17]); n < 0 || 17 + n > |data|
  }

  /** The error text of a failed response. The marker byte at offset 12 is
      skipped unread; the text must be UTF-8. */
  function DecodeErrorMessage(data: seq<Byte>): (r: Outcome<Text>)
    ensures r.Panic? <==> ErrorMessageTruncated(data)
    ensures r.Err? ==> r == Err(InvalidData)
    ensures !ErrorMessageTruncated(data) ==>
      var n := I32FromLe(data[13..17]);
      (r.Ok? <==> ValidUtf8(data[17..17 + n])) && (r.Ok? ==> r.value == data[17..17 + n])
  {
    if |data| < 17 then Panic
    else
      var n := I32FromLe(data[13..17]);
      if n < 0 || 17 + n > |data| then Panic
      else if !ValidUtf8(data[17..17 + n]) then Err(InvalidData)
      else Ok(data[17..17 + n])
  }

  /** The status code of a buffer long enough to hold one. */
  function StatusCode(data: seq<Byte>): Int32
    requires |data| >= 12
  {
    I32FromLe(data[8..12])
  }

  /** `Response::decode_query_sql`. */
  function DecodeQuerySql(data: seq<Byte>): (r: Outcome<Response>)
    ensures |data| == 0 ==> r == Err(Other(EMPTY_RESPONSE))
    ensures 0 < |data| < 12 ==> r == Panic
    ensures |data| > 12 && r.Err? ==> r == Err(InvalidData)
    ensures r.Ok? ==> (|data| >= 12 && r.value.requestId == I64FromLe(data[..8])
      && r.value.statusCode == StatusCode(data) && r.value.body.QuerySql?)
    ensures |data| >= 12 && StatusCode(data) != 0 ==>
      (r.Panic? <==> ErrorMessageTruncated(data))
      && (r.Ok? <==> DecodeErrorMessage(data).Ok?)
      && (r.Ok? ==> r.value.errorMessage == DecodeErrorMessage(data).value
                    && r.value.body == QuerySql(ZERO_QUERY_SQL))
    ensures |data| >= 12 && StatusCode(data) == 0 ==>
      (|data| == 12 ==> r == Err(Other(EMPTY_RESPONSE)))
      && (r.Panic? <==> 12 < |data| < 25)
      && (r.Ok? <==> |data| >= 25)
      && (r.Ok? ==> r.value.errorMessage == []
                    && r.value.body == QuerySql(DecodeQuerySqlResponse(data[12..]).value))
  {
    if |data| == 0 then Err(Other(EMPTY_RESPONSE))
    else if |data| < 12 then Panic
    else
      var requestId := I64FromLe(data[..8]);
      var statusCode := StatusCode(data);
      if statusCode != 0 then
        var errorMessage :- DecodeErrorMessage(data);
        Ok(Response(requestId, statusCode, errorMessage, QuerySql(ZERO_QUERY_SQL)))
      else
        var body :- DecodeQuerySqlResponse(data[12..]);
        Ok(Response(requestId, statusCode, [], QuerySql(body)))
  }

  /** `Response::decode_query_sql_fields`; the body is always read with
      field names. */
  function DecodeQuerySqlFields(data: seq<Byte>): (r: Outcome<Response>)
    ensures |data| == 0 ==> r == Err(Other(EMPTY_RESPONSE))
    ensures 0 < |data| < 12 ==> r == Panic
    ensures |data| > 12 && r.Err? ==> r == Err(InvalidData)
    ensures r.Ok? ==> (|data| >= 12 && r.value.requestId == I64FromLe(data[..8])
      && r.value.statusCode == StatusCode(data) && r.value.body.QuerySqlFields?)
    ensures |data| >= 12 && StatusCode(data) != 0 ==>
      (r.Panic? <==> ErrorMessageTruncated(data))
      && (r.Ok? <==> DecodeErrorMessage(data).Ok?)
      && (r.Ok? ==> r.value.errorMessage == DecodeErrorMessage(data).value
                    && r.value.body == QuerySqlFields(ZERO_QUERY_SQL_FIELDS))
    ensures |data| >= 12 && StatusCode(data) == 0 ==>
      (|data| == 12 ==> r == Err(Other(EMPTY_RESPONSE)))
      && (r.Panic? <==> DecodeQuerySqlFieldsResponse(data[12..], true).Panic?)
      && (r.Ok? <==> DecodeQuerySqlFieldsResponse(data[12..], true).Ok?)
      && (r.Ok? ==> r.value.errorMessage == []
                    && r.value.body == QuerySqlFields(DecodeQuerySqlFieldsResponse(data[12..], true).value))
  {
    if |data| == 0 then Err(Other(EMPTY_RESPONSE))
    else if |data| < 12 then Panic
    else
      var requestId := I64FromLe(data[..8]);
      var statusCode := StatusCode(data);
      if statusCode != 0 then
        var errorMessage :- DecodeErrorMessage(data);
        Ok(Response(requestId, statusCode, errorMessage, QuerySqlFields(ZERO_QUERY_SQL_FIELDS)))
      else
        var body :- DecodeQuerySqlFieldsResponse(data[12..], true);
        Ok(Response(requestId, statusCode, [], QuerySqlFields(body)))
  }

  // ---------------------------------------------------------------------
  // What the decoders ignore

  /** A failed response's marker byte at offset 12 is never looked at. */
  lemma ErrorMarkerIgnored(data: seq<Byte>, b: Byte)
    requires |data| >= 13 && StatusCode(data) != 0
    ensures DecodeQuerySql(data[12 := b]) == DecodeQuerySql(data)
    ensures DecodeQuerySqlFields(data[12 := b]) == DecodeQuerySqlFields(data)
  {
    var d := data[12 := b];
    assert d[..8] == data[..8] && d[8..12] == data[8..12];
    if |data| >= 17 {
      assert d[13..17] == data[13..17];
      var n := I32FromLe(data[13..17]);
      if 0 <= n && 17 + n <= |data| {
        assert d[17..17 + n] == data[17..17 + n];
      }
    }
  }

  /** Nor is the marker byte in front of a column name. */
  lemma ColumnMarkerIgnored(data: seq<Byte>, offset: nat, b: Byte)
    requires offset < |data|
    ensures Column(data[offset := b], offset) == Column(data, offset)
  {
    var d := data[offset := b];
    if offset + 5 <= |data| {
      assert d[offset + 1..offset + 5] == data[offset + 1..offset + 5];
      var n := I32FromLe(data[offset + 1..offset + 5]);
      if 0 <= n && offset + 5 + n <= |data| {
        assert d[offset + 5..offset + 5 + n] == data[offset + 5..offset + 5 + n];
      }
    }
  }

  /** Without field names the body is read from its first 17 bytes only;
      whatever follows, column-name bytes included, is ignored. */
  lemma WithoutNamesReadsSeventeenBytes(data: seq<Byte>)
    requires |data| >= 17
    ensures DecodeQuerySqlFieldsResponse(data, false) == DecodeQuerySqlFieldsResponse(data[..17], false)
  {
    var d := data[..17];
    assert d[..8] == data[..8] && d[8..12] == data[8..12] && d[12..16] == data[12..16];
  }

  // ---------------------------------------------------------------------
  // Server side: the encoders the decoders are the inverse of

  function EncodeQuerySqlResponse(b: QuerySqlResponse): (e: seq<Byte>)
    ensures |e| == 13
  {
    I64Le(b.cursorId) + (I32Le(b.rowCount) + [BoolByte(b.hasMore)])
  }

  /** The names as consecutive general string fields. */
  function PutNames(names: seq<Text>): (e: seq<Byte>)
    ensures |e| == NamesSize(names)
  {
    if |names| == 0 then [] else PutNames(names[..|names| - 1]) + PutStr(names[|names| - 1])
  }

  function EncodeQuerySqlFieldsResponse(b: QuerySqlFieldsResponse, hasFieldNames: bool): (e: seq<Byte>)
    ensures |e| == 17 + if hasFieldNames then NamesSize(b.columnNames) else 0
  {
    I64Le(b.cursorId) + (I32Le(b.columnCount)
      + ((if hasFieldNames then PutNames(b.columnNames) else [])
      + (I32Le(b.firstPageRowCount) + [BoolByte(b.hasMore)])))
  }

  /** What follows the status code: the error text when the status is
      non-zero, otherwise the operation's body, with field names. */
  function ResponseRest(resp: Response): (e: seq<Byte>)
    ensures resp.statusCode != 0 ==> e == PutStr(resp.errorMessage)
    ensures resp.statusCode == 0 && resp.body.QuerySql? ==> e == EncodeQuerySqlResponse(resp.body.query)
    ensures resp.statusCode == 0 && resp.body.QuerySqlFields? ==>
      e == EncodeQuerySqlFieldsResponse(resp.body.fields, true)
  {
    if resp.statusCode != 0 then PutStr(resp.errorMessage)
    else match resp.body
      case QuerySql(q) => EncodeQuerySqlResponse(q)
      case QuerySqlFields(f) => EncodeQuerySqlFieldsResponse(f, true)
  }

  /** A whole response: request id, status code, then the rest. */
  function EncodeResponse(resp: Response): (e: seq<Byte>)
    ensures |e| >= 12
  {
    I64Le(resp.requestId) + (I32Le(resp.statusCode) + ResponseRest(resp))
  }

  /** A column-name list the encoder can write and the decoder read back:
      the count matches and each name's length fits its i32 prefix. */
  predicate WellFormedNames(f: QuerySqlFieldsResponse) {
    f.columnCount == |f.columnNames| && NamesFit(f.columnNames)
  }

  /** A response a server sends: a failure carries a message and the
      zero-valued body of its operation, a success an empty message. */
  predicate WellFormedResponse(resp: Response) {
    if resp.statusCode != 0 then
      |resp.errorMessage| < TWO_31
      && resp.body == match resp.body
           case QuerySql(_) => QuerySql(ZERO_QUERY_SQL)
           case QuerySqlFields(_) => QuerySqlFields(ZERO_QUERY_SQL_FIELDS)
    else
      resp.errorMessage == []
      && (resp.body.QuerySqlFields? ==> WellFormedNames(resp.body.fields))
  }

  lemma DecodeEncodeQuerySqlResponse(b: QuerySqlResponse, rest: seq<Byte>)
    ensures DecodeQuerySqlResponse(EncodeQuerySqlResponse(b) + rest) == Ok(b)
  {
    var e := EncodeQuerySqlResponse(b) + rest;
    assert e[..8] == I64Le(b.cursorId);
    assert e[8..12] == I32Le(b.rowCount);
    I64RoundTrip(b.cursorId);
    I32RoundTrip(b.rowCount);
  }

  /** Conversely, a body the client accepts is the encoding of what it read,
      up to the bytes after the thirteenth and a has-more byte other than 0
      or 1. */
  lemma EncodeDecodeQuerySqlResponse(data: seq<Byte>)
    requires DecodeQuerySqlResponse(data).Ok? && data[12] <= 1
    ensures EncodeQuerySqlResponse(DecodeQuerySqlResponse(data).value) == data[..13]
  {
    I64Canonical(data[..8]);
    I32Canonical(data[8..12]);
    assert data[..13] == data[..8] + (data[8..12] + [data[12]]);
  }

  /** Likewise for a fields body read without names, up to the bytes after
      the seventeenth and a has-more byte other than 0 or 1. */
  lemma EncodeDecodeQuerySqlFieldsResponseWithoutNames(data: seq<Byte>)
    requires DecodeQuerySqlFieldsResponse(data, false).Ok? && data[16] <= 1
    ensures EncodeQuerySqlFieldsResponse(DecodeQuerySqlFieldsResponse(data, false).value, false)
      == data[..17]
  {
    var b := DecodeQuerySqlFieldsResponse(data, false).value;
    EncodeOfFieldsHeader(data, b);
  }

  /** A fields body without names whose four fields are those of `b` is
      exactly `b`'s encoding. */
  lemma EncodeOfFieldsHeader(data: seq<Byte>, b: QuerySqlFieldsResponse)
    requires |data| >= 17 && b.cursorId == I64FromLe(data[..8]) && b.columnCount == I32FromLe(data[8..12])
    requires b.firstPageRowCount == I32FromLe(data[12..16]) && BoolByte(b.hasMore) == data[16]
    ensures EncodeQuerySqlFieldsResponse(b, false) == data[..17]
  {
    I64Canonical(data[..8]);
    I32Canonical(data[8..12]);
    I32Canonical(data[12..16]);
    assert data[..17] == data[..8] + (data[8..12] + ([] + (data[12..16] + [data[16]])));
  }

  /** A general string field at `offset` reads back as one column. */
  lemma ColumnOfPut(data: seq<Byte>, offset: nat, s: Text)
    requires |s| < TWO_31 && offset + Len.Str(s) <= |data|
    requires data[offset..offset + Len.Str(s)] == PutStr(s)
    ensures Column(data, offset) == Ok((s, offset + Len.Str(s)))
  {
    var end := offset + Len.Str(s);
    PutStrLayout(s);
    SliceOfSlice(data, offset, end, 1, 5);
    SliceOfSlice(data, offset, end, 5, Len.Str(s));
    I32RoundTrip(|s|);
  }

  /** The names are written, as consecutive general string fields, from
      offset 12 of `data` on. */
  predicate NamesWritten(data: seq<Byte>, names: seq<Text>) {
    12 + NamesSize(names) <= |data| && data[12..12 + NamesSize(names)] == PutNames(names)
  }

  /** Each name's byte count fits its i32 length prefix. */
  predicate NamesFit(names: seq<Text>) {
    forall i :: 0 <= i < |names| ==> |names[i]| < TWO_31
  }

  /** The string field of `last` sits where the names `init` end. */
  predicate LastWritten(data: seq<Byte>, init: seq<Text>, last: Text) {
    var a := 12 + NamesSize(init);
    a + Len.Str(last) <= |data| && data[a..a + Len.Str(last)] == PutStr(last)
  }

  /** Written names split into all but the last name, then the last name's
      field. */
  lemma PutNamesSplit(data: seq<Byte>, names: seq<Text>)
    requires |names| > 0 && NamesWritten(data, names)
    ensures var init, last := names[..|names| - 1], names[|names| - 1];
      && NamesSize(names) == NamesSize(init) + Len.Str(last)
      && NamesWritten(data, init)
      && LastWritten(data, init, last)
  {
    var init, last := names[..|names| - 1], names[|names| - 1];
    var a, b := NamesSize(init), NamesSize(names);
    var front, field := PutNames(init), PutStr(last);
    assert (front + field)[..a] == front && (front + field)[a..] == field;
    SliceOfSlice(data, 12, 12 + b, 0, a);
    SliceOfSlice(data, 12, 12 + b, a, b);
  }

  lemma NamesFitSplit(names: seq<Text>)
    requires |names| > 0 && NamesFit(names)
    ensures NamesFit(names[..|names| - 1]) && |names[|names| - 1]| < TWO_31
  {
  }

  /** A further column written where the names read so far end is read
      next: after iteration `j = i + 1` the loop holds `names + [last]` and
      stands after the new field. */
  lemma ColumnNamesOfPutNext(data: seq<Byte>, i: nat, names: seq<Text>, offset: nat, last: Text,
                             j: nat, all: seq<Text>, end: nat)
    requires |data| >= 12 && ColumnNames(data, i) == Ok((names, offset))
    requires |last| < TWO_31 && end == offset + Len.Str(last) && end <= |data|
    requires data[offset..end] == PutStr(last)
    requires j == i + 1 && all == names + [last]
    ensures ColumnNames(data, j) == Ok((all, end))
  {
    ColumnOfPut(data, offset, last);
    ColumnNamesNext(data, i, names, offset, last, end);
  }

  /** The loop reads `names` back in order and stands where they end. */
  predicate ReadsBack(data: seq<Byte>, names: seq<Text>) {
    |data| >= 12 && ColumnNames(data, |names|) == Ok((names, 12 + NamesSize(names)))
  }

  /** The induction step: if the loop reads `init` back, and a further name
      `last` is written where `init` ends, it reads `init + [last]` back.
      It goes through `ColumnNamesAfter` and then `ColumnNamesOfPutNext`
      so that each proof sees the offsets as plain variables, which keeps
      the solver from relating `NamesSize` terms arithmetically. */
  lemma ColumnNamesOfPutStep(data: seq<Byte>, init: seq<Text>, last: Text, names: seq<Text>)
    requires names == init + [last] && |last| < TWO_31 && ReadsBack(data, init)
    requires NamesSize(names) == NamesSize(init) + Len.Str(last) && LastWritten(data, init, last)
    ensures ReadsBack(data, names)
  {
    ColumnNamesAfter(data, init, last, names, 12 + NamesSize(init),
      12 + NamesSize(init) + Len.Str(last), 12 + NamesSize(names));
  }

  /** The step with the offsets named: the loop stands at `offset` after
      `init` and at `end`, also written `stop`, after `names`. The two
      names for one offset let the caller pass `12 + NamesSize(names)` and
      `offset + Len.Str(last)` as separate terms. */
  lemma ColumnNamesAfter(data: seq<Byte>, init: seq<Text>, last: Text, names: seq<Text>,
                         offset: nat, end: nat, stop: nat)
    requires names == init + [last] && |last| < TWO_31
    requires |data| >= 12 && ColumnNames(data, |init|) == Ok((init, offset))
    requires end == offset + Len.Str(last) && end <= |data| && stop == end
    requires data[offset..end] == PutStr(last)
    ensures ColumnNames(data, |names|) == Ok((names, stop))
  {
    ColumnNamesOfPutNext(data, |init|, init, offset, last, |names|, names, end);
  }

  lemma SnocSplit<T>(s: seq<T>)
    requires |s| > 0
    ensures s == s[..|s| - 1] + [s[|s| - 1]]
  {
  }

  /** Conversely, a column the loop accepts is a general string field, up to
      its marker byte, which the loop never checks. */
  lemma PutOfColumn(data: seq<Byte>, offset: nat)
    requires Column(data, offset).Ok? && data[offset] == STRING_MARKER
    ensures data[offset..Column(data, offset).value.1] == PutStr(Column(data, offset).value.0)
  {
    var (name, end) := Column(data, offset).value;
    I32Canonical(data[offset + 1..offset + 5]);
    assert data[offset..end] == [data[offset]] + (data[offset + 1..offset + 5] + data[offset + 5..end]);
  }

  /** Names written from offset 12 on read back, in order, ending where the
      writing ended. The induction runs in `ReadsBackOfPut` over the
      `ReadsBack` predicate, so that the solver matches it as one fact
      instead of unfolding `ColumnNames` at every step. */
  lemma {:induction false} ColumnNamesOfPut(data: seq<Byte>, names: seq<Text>)
    requires NamesWritten(data, names) && NamesFit(names)
    ensures ColumnNames(data, |names|) == Ok((names, 12 + NamesSize(names)))
    decreases |names|
  {
    ReadsBackOfPut(data, names);
  }

  lemma {:induction false} ReadsBackOfPut(data: seq<Byte>, names: seq<Text>)
    requires NamesWritten(data, names) && NamesFit(names)
    ensures ReadsBack(data, names)
    decreases |names|
  {
    if |names| > 0 {
      PutNamesSplit(data, names);
      NamesFitSplit(names);
      ReadsBackOfPut(data, names[..|names| - 1]);
      SnocSplit(names);
      ColumnNamesOfPutStep(data, names[..|names| - 1], names[|names| - 1], names);
    }
  }


  /** The trailer written at `offset` reads back. */
  lemma RowCountAndMoreOfPut(data: seq<Byte>, offset: nat, rowCount: Int32, hasMore: bool)
    requires offset <= |data| && data[offset..] == I32Le(rowCount) + [BoolByte(hasMore)]
    ensures RowCountAndMore(data, offset) == Ok((rowCount, hasMore))
  {
    assert data[offset..offset + 4] == I32Le(rowCount);
    I32RoundTrip(rowCount);
  }

  /** The decoder's result, assembled from what each of its reads returns. */
  lemma DecodeQuerySqlFieldsResponseOfParts(data: seq<Byte>, hasFieldNames: bool,
                                            b: QuerySqlFieldsResponse, offset: nat)
    requires |data| >= 12
    requires I64FromLe(data[..8]) == b.cursorId && I32FromLe(data[8..12]) == b.columnCount
    requires if hasFieldNames then ColumnNames(data, RangeLength(b.columnCount)) == Ok((b.columnNames, offset))
      else b.columnNames == [] && offset == 12
    requires RowCountAndMore(data, offset) == Ok((b.firstPageRowCount, b.hasMore))
    ensures DecodeQuerySqlFieldsResponse(data, hasFieldNames) == Ok(b)
  {
  }

  /** Any buffer laid out the way the encoder lays it out reads back. */
  lemma DecodeQuerySqlFieldsResponseOfLayout(data: seq<Byte>, b: QuerySqlFieldsResponse, hasFieldNames: bool)
    requires if hasFieldNames then WellFormedNames(b) else b.columnNames == []
    requires var end := 12 + if hasFieldNames then NamesSize(b.columnNames) else 0;
      end <= |data|
      && data[..8] == I64Le(b.cursorId) && data[8..12] == I32Le(b.columnCount)
      && (hasFieldNames ==> data[12..end] == PutNames(b.columnNames))
      && data[end..] == I32Le(b.firstPageRowCount) + [BoolByte(b.hasMore)]
    ensures DecodeQuerySqlFieldsResponse(data, hasFieldNames) == Ok(b)
  {
    var end := 12 + if hasFieldNames then NamesSize(b.columnNames) else 0;
    I64RoundTrip(b.cursorId);
    I32RoundTrip(b.columnCount);
    if hasFieldNames {
      ColumnNamesOfPut(data, b.columnNames);
    }
    RowCountAndMoreOfPut(data, end, b.firstPageRowCount, b.hasMore);
    DecodeQuerySqlFieldsResponseOfParts(data, hasFieldNames, b, end);
  }

  lemma DecodeEncodeQuerySqlFieldsResponse(b: QuerySqlFieldsResponse, hasFieldNames: bool)
    requires if hasFieldNames then WellFormedNames(b) else b.columnNames == []
    ensures DecodeQuerySqlFieldsResponse(EncodeQuerySqlFieldsResponse(b, hasFieldNames), hasFieldNames)
      == Ok(b)
  {
    var e := EncodeQuerySqlFieldsResponse(b, hasFieldNames);
    var names := if hasFieldNames then PutNames(b.columnNames) else [];
    var trailer := I32Le(b.firstPageRowCount) + [BoolByte(b.hasMore)];
    var end := 12 + if hasFieldNames then NamesSize(b.columnNames) else 0;
    assert e[0..] == I64Le(b.cursorId) + (I32Le(b.columnCount) + (names + trailer));
    Peel(e, 0, 8, I64Le(b.cursorId), I32Le(b.columnCount) + (names + trailer));
    Peel(e, 8, 12, I32Le(b.columnCount), names + trailer);
    Peel(e, 12, end, names, trailer);
    assert e[..8] == e[0..8];
    DecodeQuerySqlFieldsResponseOfLayout(e, b, hasFieldNames);
  }

  // ---------------------------------------------------------------------
  // Whole responses

  /** Where the request id, the status code and the rest land. */
  lemma EncodeResponseLayout(resp: Response)
    ensures var e := EncodeResponse(resp);
      e[..8] == I64Le(resp.requestId) && e[8..12] == I32Le(resp.statusCode)
      && e[12..] == ResponseRest(resp)
  {
    var e := EncodeResponse(resp);
    assert e[8..] == I32Le(resp.statusCode) + ResponseRest(resp);
    SliceOfSlice(e, 8, |e|, 0, 4);
  }

  /** An error text written from offset 12 on reads back. */
  lemma DecodeErrorMessageOfPut(data: seq<Byte>, message: Text)
    requires |data| >= 12 && |message| < TWO_31 && data[12..] == PutStr(message)
    ensures !ErrorMessageTruncated(data) && DecodeErrorMessage(data) == Ok(message)
  {
    PutStrLayout(message);
    SliceOfSlice(data, 12, |data|, 1, 5);
    SliceOfSlice(data, 12, |data|, 5, |data| - 12);
    assert data[13..17] == I32Le(|message|);
    I32RoundTrip(|message|);
    assert data[17..17 + |message|] == message;
  }

  /** The envelope's first two fields read back. */
  lemma EnvelopeOfEncode(resp: Response)
    ensures var e := EncodeResponse(resp);
      I64FromLe(e[..8]) == resp.requestId && StatusCode(e) == resp.statusCode
  {
    EncodeResponseLayout(resp);
    I64RoundTrip(resp.requestId);
    I32RoundTrip(resp.statusCode);
  }

  /** A response a server sends to an SQL query reads back unchanged, the
      failed ones included. */
  lemma DecodeEncodeQuerySql(resp: Response)
    requires resp.body.QuerySql? && WellFormedResponse(resp)
    ensures DecodeQuerySql(EncodeResponse(resp)) == Ok(resp)
  {
    var e := EncodeResponse(resp);
    EncodeResponseLayout(resp);
    EnvelopeOfEncode(resp);
    if resp.statusCode != 0 {
      DecodeErrorMessageOfPut(e, resp.errorMessage);
    } else {
      DecodeEncodeQuerySqlResponse(resp.body.query, []);
      assert EncodeQuerySqlResponse(resp.body.query) + [] == e[12..];
    }
  }

  /** A response a server sends to an SQL fields query reads back unchanged,
      the failed ones included. */
  lemma DecodeEncodeQuerySqlFields(resp: Response)
    requires resp.body.QuerySqlFields? && WellFormedResponse(resp)
    ensures DecodeQuerySqlFields(EncodeResponse(resp)) == Ok(resp)
  {
    var e := EncodeResponse(resp);
    EncodeResponseLayout(resp);
    EnvelopeOfEncode(resp);
    if resp.statusCode != 0 {
      DecodeErrorMessageOfPut(e, resp.errorMessage);
    } else {
      DecodeEncodeQuerySqlFieldsResponse(resp.body.fields, true);
    }
  }

  /** A two-column result, `ID` and `NAME`, ten rows in the first page and
      more to come: 17 fixed bytes plus two string fields of 7 and 9 bytes. */
  lemma TwoColumnExample()
    ensures ValidUtf8([73, 68]) && ValidUtf8([78, 65, 77, 69])
    ensures var b := QuerySqlFieldsResponse(7, 2, [[73, 68], [78, 65, 77, 69]], 10, true);
      var e := EncodeQuerySqlFieldsResponse(b, true);
      |e| == 33 && DecodeQuerySqlFieldsResponse(e, true) == Ok(b)
  {
    var id: seq<Byte>, name: seq<Byte> := [73, 68], [78, 65, 77, 69];
    AsciiIsValid(id);
    AsciiIsValid(name);
    var b := QuerySqlFieldsResponse(7, 2, [id, name], 10, true);
    DecodeEncodeQuerySqlFieldsResponse(b, true);
  }
}

=== FILE: utf8.dfy ===
/** UTF-8 well-formedness, the check `String::from_utf8` performs, following
    the byte-sequence grammar of section 4 of RFC 3629. */
module Utf8 {
  import opened Bytes

  /** A continuation byte, `UTF8-tail = %x80-BF`. */
  predicate IsTail(b: Byte) {
    0x80 <= b <= 0xBF
  }

  /** The width of the well-formed character at the front of `s`, or 0 when
      `s` does not start with one. One branch per alternative of the
      `UTF8-1` .. `UTF8-4` rules. */
  function LeadWidth(s: seq<Byte>): (w: nat)
    requires |s| > 0
    ensures w <= 4 && w <= |s|
    ensures w > 0 ==> forall k :: 0 < k < w ==> IsTail(s[k])
  {
    var b := s[0];
    if b <= 0x7F then 1
    else if 0xC2 <= b <= 0xDF then
      (if |s| >= 2 && IsTail(s[1]) then 2 else 0)
    else if b == 0xE0 then
      (if |s| >= 3 && 0xA0 <= s[1] <= 0xBF && IsTail(s[2]) then 3 else 0)
    else if (0xE1 <= b <= 0xEC) || (0xEE <= b <= 0xEF) then
      (if |s| >= 3 && IsTail(s[1]) && IsTail(s[2]) then 3 else 0)
    else if b == 0xED then
      (if |s| >= 3 && 0x80 <= s[1] <= 0x9F && IsTail(s[2]) then 3 else 0)
    else if b == 0xF0 then
      (if |s| >= 4 && 0x90 <= s[1] <= 0xBF && IsTail(s[2]) && IsTail(s[3]) then 4 else 0)
    else if 0xF1 <= b <= 0xF3 then
      (if |s| >= 4 && IsTail(s[1]) && IsTail(s[2]) && IsTail(s[3]) then 4 else 0)
    else if b == 0xF4 then
      (if |s| >= 4 && 0x80 <= s[1] <= 0x8F && IsTail(s[2]) && IsTail(s[3]) then 4 else 0)
    else 0
  }

  /** `UTF8-octets = *( UTF8-char )`. */
  predicate ValidUtf8(s: seq<Byte>)
    decreases |s|
  {
    |s| == 0 || (LeadWidth(s) > 0 && ValidUtf8(s[LeadWidth(s)..]))
  }

  /** The bytes of a Rust `String`. */
  type Text = s: seq<Byte> | ValidUtf8(s) witness []

  predicate IsAscii(s: seq<Byte>) {
    forall i :: 0 <= i < |s| ==> s[i] <= 0x7F
  }

  /** Pure ASCII is well-formed UTF-8. */
  lemma {:induction false} AsciiIsValid(s: seq<Byte>)
    requires IsAscii(s)
    ensures ValidUtf8(s)
  {
    if |s| > 0 {
      assert LeadWidth(s) == 1;
      AsciiIsValid(s[1..]);
    }
  }
}
